=== FILE: README.md ===
# LocalTube core in Dafny

LocalTube is a local video library. An Express server scans a few folders for
video files and keeps a catalog of them. It streams the files with HTTP range
support and stores a small JSON database: extra folders, playback positions,
liked videos and playlists. A browser page lists, filters, sorts and plays
the catalog.

This project models the pure logic of that system and proves properties of
it. The modules are:

- `Options`, `Seqs` and `Text` (options.dfy, seqs.dfy, text.dfy) hold the
  JavaScript built-ins the code relies on:
  - `filter`, `findIndex` and `new Set` de-duplication;
  - decimal rendering, `parseInt` of digit strings and `padStart`;
  - ASCII `toLowerCase`/`toUpperCase`, `trim`, `includes` and `split`.
- `Library` (library.dfy) covers the library scan of server.js:
  - `getDirsToScan`, `isVideo` with Node's `path.extname` and `formatDuration`;
  - `scanDirectories` over an abstract file system. The file system maps a
    directory to its listing, or to "unreadable". Each entry has a name, the
    outcome of `statSync` and the probed duration.
  - Catalog ids are the positional counter `v1, v2, …`.
- `Stream` (stream.dfy) models `/api/stream/:id` as a function from the
  catalog, the file sizes and the Range header to a response descriptor:
  status, headers and the byte span to send.
- `UserState` (userstate.dfy) models the database record and the handlers
  that change it:
  - `/api/folders`, `/api/history` and `DELETE /api/video/:id`;
  - the `/api/videos` join of the catalog with the record.
- `Client` (client.dfy) models the list logic of public/app.js:
  - `timeAgo` on whole seconds and the avatar colour;
  - search, category chips and the sort dropdown;
  - recommendations and the autoplay successor;
  - the history and liked views.

The model follows the code as written:

- Ids are positions in scan order (`v${idCounter++}`). Deleting a file therefore shifts the ids of later files at the next
  rescan (`Library.RescanReassignsIds`).
- Only the root list is de-duplicated, as strings. Two roots that name the
  same directory differently are both scanned.
- Streaming always sends `Content-Type: video/mp4`, whatever the extension.
- The listing entries carry no `size` field, so the "large files" chip keeps
  nothing.

A `Video` keeps the counter value and the probed duration from which the
server renders its `id` and `duration` fields (`Video.Id()`,
`Video.Duration()`).

## Model

| member | source | states |
|---|---|---|
| Library.DirsToScan | server.js:46-55 | The roots have no duplicates. A path is a root iff it is a default dir or a custom folder. The de-duplicated defaults come first. |
| Library.DirsToScanReference | server.js:46-55 | For every input, the roots are the de-duplicated defaults, then the custom folders in order of first occurrence, without those already among the defaults. |
| Library.DirsToScanOrder | server.js:46-55 | When the three defaults are distinct they are the first three roots. They are followed by the custom folders that are not defaults, each once, in order of first occurrence. |
| Seqs.DedupConcat | server.js:46-55 | `new Set` over a + b keeps a's first occurrences, then b's first occurrences of values not in a, each part in its own order. |
| Library.IsVideoIff | server.js:58-61 | For a name without '/', `isVideo` holds iff the suffix from the last '.' lower-cases to one of the five extensions. That '.' must not be the first character. |
| Library.ExtensionOf | server.js:58-61 | `path.extname` of a name whose last '.' is at k is the suffix from k. It is "" when k is 0 or the name is "..". |
| Library.IsVideoIgnoresCase | server.js:58-61 | "Holiday.MP4" is accepted: the extension is compared lower-cased. |
| Library.IsVideoLastExtension | server.js:58-61 | "clip.mp4.part" is rejected: only the last extension counts. |
| Library.IsVideoDotfile | server.js:58-61 | ".mp4" is rejected: a leading dot is not an extension. |
| Library.FormatDurationRoundTrip | server.js:67-77 | The text has three ':' fields from one hour on, two below. The first field has no leading zero and counts whole hours (H:MM:SS) or whole minutes (M:SS). Each later field is two digits worth less than 60. Reading the fields back in base 60 gives the seconds. |
| Library.FormatDurationExamples | server.js:67-77 | 0 gives "0:00", 65 gives "1:05" and 3725 gives "1:02:05". |
| Library.VideoIdInjective | server.js:110 | Distinct counter values give distinct ids. |
| Library.ScanDir | server.js:101-120 | One directory yields no more entries than its listing has. |
| Library.ScanDirReference | server.js:101-123 | One directory's entries are its accepted regular files before the first `statSync` failure, numbered in listing order. A failing `statSync` ends that directory through the catch. |
| Library.ScanDirNumbers | server.js:94-110 | Within one directory the counter advances by one per entry. |
| Library.ScanNumbers | server.js:94-110 | Across roots the counter carries over: entries are numbered consecutively. |
| Library.ScanIdsDistinct | server.js:94-110 | Ids within one catalog are pairwise distinct. |
| Library.CatalogNumbers | server.js:93-126 | The i-th catalog entry has id `v(i+1)`. |
| Library.ScanDirsAppend | server.js:98-124 | Scanning roots a then b is scanning a + b, with b's counter starting after a's entries. |
| Library.ScanSkipsUnreadable | server.js:98-99 | A root that does not exist or cannot be listed contributes nothing and shifts no id. |
| Library.ScanProvenance | server.js:98-117 | Every entry comes from an accepted regular file in a readable root. Its title, file name and path are that file's name and joined path. |
| Library.CatalogIsVideos | server.js:104-112 | Every catalog entry's file name passes `isVideo`, and its title equals its file name. |
| Library.ScanFindsEveryVideoFile | server.js:98-117 | Every accepted regular file in a readable root with no `statSync` failure is in the catalog. |
| Library.RescanReassignsIds | server.js:94-126 | Take two video files in one root. When the first disappears, the rescan gives its id `v1` to the other. |
| Stream.StreamVideo | server.js:188-232 | The reply status is always 200, 206, 404, 416 or 500. The video file is opened exactly when the status is 200 or 206. The status is 404 iff no catalog entry has the id. A byte span sent has first <= last <= 2^53 - 1. |
| Stream.RangeRoundTrip | server.js:199-202 | Every single byte range `bytes=<first>-[<last>]` is well formed. The handler reads back its first and last positions, with an empty last part read as absent. |
| Stream.StreamNotFound | server.js:189-192 | The status is 404 iff no catalog entry has the id. The body is then "Video not found". |
| Stream.StreamStatFails | server.js:194-196 | A found video whose file cannot be stat'ed gives Express's 500 error page. |
| Stream.StreamWhole | server.js:224-231 | With no header or an empty one, the reply is 200 with the whole file. Content-Length reads back as the file size. Content-Type is video/mp4 and there is no Content-Range. |
| Stream.StreamUnsatisfiable | server.js:204-210 | With a well-formed range the status is 416 iff first >= file size, and then no file is opened. Otherwise the status is 500 when `createReadStream` refuses the span and 206 when it accepts it. |
| Stream.StreamPartial | server.js:199-219 | A satisfiable range gives 206 with the span first..last, where an absent last means size - 1. The headers are the Content-Range `bytes first-last/size`, `Accept-Ranges: bytes`, a Content-Length of last - first + 1, and video/mp4. If `createReadStream` refuses the span (a position above 2^53 - 1, or first > last), its throw gives Express's 500 instead, before any header is written. |
| Stream.PartialHeaderValues | server.js:211-216 | Looking up each of the four 206 headers by name gives its value. |
| Stream.StreamPartialLength | server.js:209-214 | Whenever a byte span is sent, Content-Length reads back as the number of bytes in it. |
| Stream.StreamHugeEnd | server.js:201-210 | A last position of 2^53 on a 10-byte file gives 500: `createReadStream` refuses an end that is not a safe integer. |
| Stream.StreamBackwardRange | server.js:201-210 | bytes=5-2 on a 10-byte file gives 500: `createReadStream` refuses a start after the end. |
| Stream.StreamDoesNotClampEnd | server.js:202-214 | The last position is not clamped: bytes=0-99 of a 10-byte file gives 206 announcing 100 bytes. |
| UserState.AddFolder | server.js:172-185 | A folder is added iff it is a non-empty string, not yet listed and on disk, and then it is appended. Otherwise the reply is 400 and the record is unchanged. |
| UserState.AddFolderKeepsFolders | server.js:174-176 | Adding folders keeps the list free of duplicates and empty strings. |
| UserState.InitialFoldersWellKept | server.js:24-32 | The record `initDb` writes has a well-kept folder list, and adding a folder to it keeps the list well kept. |
| UserState.AddedFolderIsScanned | server.js:46-55 | After a successful add, the next scan's roots include the folder exactly once. |
| UserState.AddedFolderVideosListed | server.js:98-117 | After a successful add, every video file of that readable folder is in the next catalog. This holds when the folder's listing has no `statSync` failure. |
| UserState.AddedFolderVideosReturned | server.js:140-152 | Under the same conditions, every such file is an entry of the next `GET /api/videos` reply. |
| UserState.SetHistory | server.js:165-170 | Replies success. The history records the timestamp under the given id, other ids keep theirs, and the other stores are unchanged. The exception is a `__proto__` id that is not already an own key: plain-object assignment ignores it and nothing changes. |
| UserState.SetHistoryProtoIgnored | server.js:165-170 | On a fresh history, a `__proto__` id is acknowledged but not recorded. Any other id is recorded as the only entry. |
| UserState.Join | server.js:145-149 | The listing keeps the catalog's entries and order. An entry is liked iff its id is in the liked list. Its resume time is the one recorded for its id, or 0 when none is recorded. |
| UserState.Forget | server.js:302-307 | After clean-up the id is in no history record, not in the liked list, and in no playlist. The playlist names are kept. |
| UserState.ForgetKeepsOthers | server.js:302-307 | Clean-up keeps the folders and every other id's history record. Every other id keeps its count in the liked list and in each playlist. |
| UserState.ForgetKeepsOrder | server.js:304-306 | Clean-up keeps order: an entry other than the id stays between what remains of the entries before it and after it, in the liked list and in every playlist. |
| UserState.DeleteVideo | server.js:282-319 | The reply status is 200, 404 or 500. |
| UserState.DeleteUnknown | server.js:283-286 | The status is 404 iff no catalog entry has the id. Then the record and the catalog are unchanged. |
| UserState.DeleteCompletes | server.js:288-314 | A completed deletion replies 200, cleans up the record and splices the entry out. With distinct ids, the catalog keeps exactly the other entries, in order. |
| UserState.DeleteFails | server.js:290-318 | If a file removal throws, the reply is 500 and nothing changes. If the database write throws, the reply is 500, the in-memory clean-up stays and the catalog keeps the entry. |
| Client.AgeOf | public/app.js:146-152 | "just now" iff diff < 60. Otherwise the unit is the longest one diff reaches, and the count n satisfies n·unit <= diff < (n+1)·unit with n >= 1. |
| Client.AgeOfIsUnique | public/app.js:146-152 | Any fitting unit with the whole count of that unit is the description `timeAgo` gives. |
| Client.UnitFitsUnique | public/app.js:147-152 | The buckets are disjoint: at most one unit fits a difference. |
| Client.TimeAgoExamples | public/app.js:146-152 | 59 gives "just now", 60 gives "1 min ago" and 7200 gives "2 hours ago". |
| Client.AvatarIndex | public/app.js:135-138 | `name.length % avatarColors.length` is always a palette index. |
| Client.AvatarColor | public/app.js:135-138 | The avatar colour is one of the nine palette colours. |
| Client.AvatarInitial | public/app.js:139 | The initial is empty for an empty name. Otherwise it is the upper-cased first character. |
| Client.Search | public/app.js:387-388 | An empty lower-cased, trimmed query keeps the list. Otherwise a video is kept iff its lower-cased title or file name contains the query. |
| Client.SearchIsFilter | public/app.js:387-388 | The search result is the subsequence of matching videos in original order, with an empty query or not. |
| Client.CategoryFilter | public/app.js:391-402 | "All" keeps the list. "downloads" keeps the videos whose lower-cased path contains "downloads". "large files" keeps nothing. "recently watched" keeps resumeTime > 0. Any other chip keeps titles or file names containing it. Each filter keeps order. |
| Client.SortWithPermutes | public/app.js:406-409 | The stable sort returns a permutation of its input. |
| Client.SortWithOrdered | public/app.js:406-409 | With a sign-antisymmetric comparator, no neighbour pair of the result is out of order. |
| Client.SortBy | public/app.js:405-409 | A dropdown value other than the four sort keys leaves the order unchanged. |
| Client.SortByPermutes | public/app.js:405-409 | Every dropdown value yields a permutation of the filtered list. |
| Client.SortByDate | public/app.js:408-409 | "dateNew" orders uploads newest first and "dateOld" oldest first. |
| Client.SortByName | public/app.js:406-407 | For an antisymmetric collation, "name" orders titles ascending and "nameDesc" descending. |
| Client.ApplyFiltersAndSortContents | public/app.js:383-411 | The grid holds exactly the search-and-chip matches, with their multiplicities. |
| Client.Recommended | public/app.js:208 | At most 20 recommendations, none with the current id, all from the listing. All of the others are shown when there are at most 20. |
| Client.RecommendedPrefix | public/app.js:208 | The recommendations are the first min(20, n) of the other videos, in listing order. |
| Client.AutoplayNext | public/app.js:270-276 | Nothing plays when the ended video is not in the grid. Whatever plays comes after the grid's first entry. |
| Client.AutoplayNextIff | public/app.js:272-274 | Let i be the first grid position with the id. Autoplay plays entry i+1 iff the toggle is on and i+1 < length, and otherwise nothing. |
| Client.LikedViewIsLikedCatalog | public/app.js:350-352 | On a fresh listing, the liked view is the listing of the catalog entries whose id is liked, in catalog order. |
| Client.HistoryViewIsWatchedCatalog | public/app.js:339-341 | On a fresh listing, the history view is the listing of the catalog entries with a positive recorded position, in catalog order. |

## Left out

- File system and stream I/O are abstract inputs, not performed:
  - `existsSync`, `readdirSync` and `statSync` results are inputs.
  - `createReadStream`, the pipes and the `req.on('close')` clean-up are described by the response's byte span.
  - The file deletions themselves are not tracked.
- Loading and saving the JSON database (server.js:24-42) is not modelled, except the save failure in `DELETE`.
  - A throwing `saveDb` in `/api/folders` and `/api/history` is left out. It is outside any `try` and would surface as Express's 500 after the in-memory change.
- ffmpeg and ffprobe are foreign tools: the probed duration is an input natural, and thumbnails are not modelled.
  - The `/api/thumbnail/:id` endpoint is not part of this model.
- The random view count and `toLocaleDateString` are left out. The upload date is an uninterpreted string.
- The scan runs its awaits in sequence. Concurrent requests and interleaved rescans are not modelled.
- Library.JoinPath: models POSIX `path.join` for a normal directory path only. A folder with `//`, `.` or `..` segments keeps them in the model's paths, where `path.join` would collapse them. The Windows `\` separator is not modelled.
- Library.FormatDuration: takes whole seconds. For non-negative seconds `formatDuration(x)` equals `formatDuration(floor(x))`. NaN and negative durations are not modelled, because ffprobe reports non-negative numbers.
- Case mapping covers ASCII letters only. `toLowerCase` and `toUpperCase` on other scripts (full Unicode case mapping) are not modelled.
- Stream.StreamVideo: requires the Range header to be absent, empty, or exactly `bytes=<digits>-<digits or nothing>`. Headers for which `parseInt` would give NaN are excluded. So are multi-range, suffix (`bytes=-N`) and whitespace forms.
- Stream.StreamVideo: the 416 message renders the first position's exact digits. `parseInt` yields a Number, which for a first position above 2^53 - 1 is rounded (9007199254740993 prints as 9007199254740992) and from 10^21 on prints in exponent form (`1e+21`); those renderings are not modelled.
- Stream.StreamVideo: file sizes are exact naturals. Sizes above 2^53 - 1, where JavaScript Numbers would round the size and `fileSize - 1`, are not modelled, because no real file is that large.
- Response headers that Express adds itself (for example the Content-Type of `send`) are not listed.
- History timestamps are real numbers. JSON values of other types in the request bodies (a non-string folder, a missing `videoId` or `timestamp`) are not modelled.
- Client.TimeAgo: takes the whole seconds between the date and now. `Date` parsing, and the "NaN years ago" an invalid date produces, are left out.
- Client.SortWith: `localeCompare` and `Date` parsing are parameters (`collate`, `date`). The sort is a stable insertion sort, which agrees with any stable `Array.prototype.sort` for a consistent comparator. Inconsistent comparators are left out, such as `NaN` dates.
- Client.AvatarInitial: takes the first character of the name. `substring(0, 1)` takes the first UTF-16 code unit, so for a name starting outside the Basic Multilingual Plane (an emoji, say) the source gives a lone surrogate where the model gives the whole character.
- Client.AvatarIndex: takes `name.length` as the number of characters. JavaScript counts UTF-16 code units, which differ for characters outside the Basic Multilingual Plane.
- The client's floating-point and DOM code is not modelled: playback speed, volume, the progress-bar percentage, the theme, the toasts, the modals and `fetch`.
  - The "large files" chip is modelled through the listing's missing `size` field. Its `parseFloat` branch never runs.
- Client-side mutations of `allVideos` are not modelled: the resume-time updates every 5 seconds and like toggles. The client functions take any listing as input.

=== FILE: client.dfy ===
/** The browser front end's list logic: how long ago a date was, the avatar
    colour, search, category filters and sorting of the grid, the
    recommendation column, the autoplay successor, and the history and
    liked views. The page works on the `/api/videos` listing. */
module Client {
  import opened Options
  import opened Text
  import opened Seqs
  import opened Library
  import opened UserState

  // ---------------------------------------------------------------- timeAgo

  datatype AgeUnit = Minutes | Hours | Days | Months | Years

  /** The length of one unit in seconds (a month is 30 days, a year 365). */
  function UnitSeconds(u: AgeUnit): nat {
    match u
    case Minutes => 60
    case Hours => 3600
    case Days => 86400
    case Months => 2592000
    case Years => 31536000
  }

  function Suffix(u: AgeUnit): string {
    match u
    case Minutes => " min ago"
    case Hours => " hours ago"
    case Days => " days ago"
    case Months => " months ago"
    case Years => " years ago"
  }

  /** What `timeAgo` reports: nothing yet, or a whole number of one unit. */
  datatype Age = JustNow | Ago(count: nat, unit: AgeUnit)

  /** The unit `timeAgo` picks is the longest one the difference reaches. */
  predicate UnitFits(diff: int, u: AgeUnit) {
    UnitSeconds(u) <= diff && (u == Years || diff < UnitSeconds(NextUnit(u)))
  }

  function NextUnit(u: AgeUnit): AgeUnit {
    match u
    case Minutes => Hours
    case Hours => Days
    case Days => Months
    case Months => Years
    case Years => Years
  }

  /** The bucketing of `timeAgo`, on the whole seconds elapsed. The count is
      the number of whole units in the difference. */
  function AgeOf(diff: int): (a: Age)
    ensures a.JustNow? <==> diff < 60
    ensures a.Ago? ==> UnitFits(diff, a.unit)
    ensures a.Ago? ==> 1 <= a.count && a.count * UnitSeconds(a.unit) <= diff < (a.count + 1) * UnitSeconds(a.unit)
  {
    if diff < 60 then JustNow
    else if diff < 3600 then Ago(diff / 60, Minutes)
    else if diff < 86400 then Ago(diff / 3600, Hours)
    else if diff < 2592000 then Ago(diff / 86400, Days)
    else if diff < 31536000 then Ago(diff / 2592000, Months)
    else Ago(diff / 31536000, Years)
  }

  function AgeText(a: Age): string {
    match a
    case JustNow => "just now"
    case Ago(n, u) => NatToString(n) + Suffix(u)
  }

  /** `timeAgo`, given the whole seconds between the date and now. */
  function TimeAgo(diff: int): string {
    AgeText(AgeOf(diff))
  }

  /** Exactly one unit fits each difference of a minute or more, so the
      bucket is determined by the difference alone. */
  lemma UnitFitsUnique(diff: int, u: AgeUnit, w: AgeUnit)
    requires UnitFits(diff, u) && UnitFits(diff, w)
    ensures u == w
  {
  }

  /** Any description with a fitting unit and the whole count of that unit
      is the one `timeAgo` gives. */
  lemma AgeOfIsUnique(diff: int, n: nat, u: AgeUnit)
    requires UnitFits(diff, u) && n * UnitSeconds(u) <= diff < (n + 1) * UnitSeconds(u)
    ensures AgeOf(diff) == Ago(n, u)
  {
    var a := AgeOf(diff);
    UnitFitsUnique(diff, a.unit, u);
    WholeUnits(diff, n, a.count, UnitSeconds(u));
  }

  /** The whole number of units in a difference is unique. */
  lemma WholeUnits(diff: int, n: nat, m: nat, unit: nat)
    requires unit > 0
    requires n * unit <= diff < (n + 1) * unit
    requires m * unit <= diff < (m + 1) * unit
    ensures n == m
  {
    if n < m {
      assert (n + 1) * unit <= m * unit by {
        MulMonotone(n + 1, m, unit);
      }
    } else if m < n {
      assert (m + 1) * unit <= n * unit by {
        MulMonotone(m + 1, n, unit);
      }
    }
  }

  lemma MulMonotone(a: nat, b: nat, c: nat)
    requires a <= b
    ensures a * c <= b * c
  {
  }

  lemma TimeAgoExamples()
    ensures TimeAgo(59) == "just now"
    ensures TimeAgo(60) == "1 min ago"
    ensures TimeAgo(7200) == "2 hours ago"
  {
    assert NatToString(1) == "1";
    assert NatToString(2) == "2";
  }

  // ---------------------------------------------------------------- makeAvatar

  const AvatarColors: seq<string> :=
    ["#ff0000", "#ff4081", "#7c4dff", "#448aff", "#18ffff", "#69f0ae", "#ffab40", "#ff6e40", "#8d6e63"]

  /** `name.length % avatarColors.length`: always a palette index. */
  function AvatarIndex(name: string): (k: nat)
    ensures k < |AvatarColors|
  {
    |name| % |AvatarColors|
  }

  function AvatarColor(name: string): (c: string)
    ensures c in AvatarColors
  {
    AvatarColors[AvatarIndex(name)]
  }

  /** `name.substring(0, 1).toUpperCase()`. */
  function AvatarInitial(name: string): (s: string)
    ensures |s| == if name == "" then 0 else 1
    ensures |s| == 1 ==> s[0] == UpperChar(name[0])
  {
    ToUpper(name[..if name == "" then 0 else 1])
  }

  // ---------------------------------------------------------------- search and categories

  /** The search box's text as the filter uses it: lower-cased, then trimmed. */
  function Query(input: string): string {
    Trim(ToLower(input))
  }

  /** The lower-cased title or file name contains `q`. */
  predicate MatchesText(v: Listed, q: string) {
    Contains(ToLower(v.video.title), q) || Contains(ToLower(v.video.filename), q)
  }

  function Matching(q: string): Listed -> bool {
    (v: Listed) => MatchesText(v, q)
  }

  /** The search step: with an empty query the list is left as it is. */
  function Search(videos: seq<Listed>, input: string): (r: seq<Listed>)
    ensures Query(input) == "" ==> r == videos
    ensures forall v :: v in r <==> v in videos && MatchesText(v, Query(input))
  {
    var q := Query(input);
    if q != "" then Filter(videos, Matching(q))
    else
      assert forall v: Listed :: MatchesText(v, q);
      videos
  }

  /** The search keeps the matching videos in their original order, whether
      or not the query is empty. */
  lemma SearchIsFilter(videos: seq<Listed>, input: string)
    ensures Search(videos, input) == Filter(videos, Matching(Query(input)))
  {
    var q := Query(input);
    if q == "" {
      forall i | 0 <= i < |videos| ensures Matching(q)(videos[i]) {
        assert MatchesText(videos[i], q);
      }
      FilterAll(videos, Matching(q));
    }
  }

  /** The lower-cased path contains "downloads". */
  predicate InDownloads(v: Listed) {
    Contains(ToLower(v.video.path), "downloads")
  }

  /** The position recorded for the video is positive. */
  predicate Watched(v: Listed) {
    v.resumeTime > 0.0
  }

  /** The category chips. The listing's entries have no `size` field, so
      `(v.size || '')` is empty for every entry and the "large files" chip
      keeps nothing. */
  function CategoryFilter(videos: seq<Listed>, category: string): (r: seq<Listed>)
    ensures category == "All" ==> r == videos
    ensures category != "All" && ToLower(category) == "downloads" ==> r == Filter(videos, InDownloads)
    ensures category != "All" && ToLower(category) == "large files" ==> r == []
    ensures category != "All" && ToLower(category) == "recently watched" ==> r == Filter(videos, Watched)
    ensures category != "All" && ToLower(category) !in {"downloads", "large files", "recently watched"} ==>
              r == Filter(videos, Matching(ToLower(category)))
  {
    if category == "All" then videos
    else
      var c := ToLower(category);
      if c == "downloads" then Filter(videos, InDownloads)
      else if c == "large files" then []
      else if c == "recently watched" then Filter(videos, Watched)
      else Filter(videos, Matching(c))
  }

  // ---------------------------------------------------------------- sorting

  /** A comparator in the sense of `Array.prototype.sort`: negative puts the
      first argument first. */
  type Comparator = (Listed, Listed) -> int

  /** The comparator is antisymmetric in sign, as `localeCompare` and a
      difference of dates are. */
  ghost predicate Antisymmetric(cmp: Comparator) {
    forall a, b :: cmp(a, b) > 0 ==> cmp(b, a) < 0
  }

  /** Insert `x` after every element that does not compare greater, so that
      equal elements keep their order. */
  function Insert(x: Listed, s: seq<Listed>, cmp: Comparator): (r: seq<Listed>)
    ensures |r| == |s| + 1
    ensures r[0] == x || (|s| > 0 && r[0] == s[0])
  {
    if |s| == 0 then [x]
    else if cmp(s[0], x) > 0 then [x] + s
    else [s[0]] + Insert(x, s[1..], cmp)
  }

  /** A stable sort. For a consistent comparator every stable sort gives
      this result, in particular the engine's `Array.prototype.sort`. */
  function SortWith(s: seq<Listed>, cmp: Comparator): (r: seq<Listed>)
    ensures |r| == |s|
  {
    if |s| == 0 then [] else Insert(s[|s| - 1], SortWith(s[..|s| - 1], cmp), cmp)
  }

  lemma {:induction false} InsertMultiset(x: Listed, s: seq<Listed>, cmp: Comparator)
    ensures multiset(Insert(x, s, cmp)) == multiset(s) + multiset{x}
  {
    if |s| > 0 && cmp(s[0], x) <= 0 {
      InsertMultiset(x, s[1..], cmp);
      assert s == [s[0]] + s[1..];
    }
  }

  /** Sorting rearranges the list: the result is a permutation. */
  lemma {:induction false} SortWithPermutes(s: seq<Listed>, cmp: Comparator)
    ensures multiset(SortWith(s, cmp)) == multiset(s)
  {
    if |s| > 0 {
      SortWithPermutes(s[..|s| - 1], cmp);
      InsertMultiset(s[|s| - 1], SortWith(s[..|s| - 1], cmp), cmp);
      assert s == s[..|s| - 1] + [s[|s| - 1]];
    }
  }

  /** No neighbour pair is out of order. */
  ghost predicate OrderedBy(s: seq<Listed>, cmp: Comparator) {
    forall i :: 0 <= i < |s| - 1 ==> cmp(s[i], s[i + 1]) <= 0
  }

  lemma {:induction false} InsertOrdered(x: Listed, s: seq<Listed>, cmp: Comparator)
    requires Antisymmetric(cmp) && OrderedBy(s, cmp)
    ensures OrderedBy(Insert(x, s, cmp), cmp)
  {
    if |s| > 0 {
      var r := Insert(x, s, cmp);
      if cmp(s[0], x) > 0 {
        assert r == [x] + s;
        forall i | 0 <= i < |r| - 1 ensures cmp(r[i], r[i + 1]) <= 0 {
          if i > 0 {
            assert r[i] == s[i - 1] && r[i + 1] == s[i];
          }
        }
      } else {
        var t := Insert(x, s[1..], cmp);
        InsertOrdered(x, s[1..], cmp);
        assert r == [s[0]] + t;
        forall i | 0 <= i < |r| - 1 ensures cmp(r[i], r[i + 1]) <= 0 {
          if i > 0 {
            assert r[i] == t[i - 1] && r[i + 1] == t[i];
          } else if t[0] != x {
            assert t[0] == s[1];
          }
        }
      }
    }
  }

  /** With an antisymmetric comparator the result is in order. */
  lemma {:induction false} SortWithOrdered(s: seq<Listed>, cmp: Comparator)
    requires Antisymmetric(cmp)
    ensures OrderedBy(SortWith(s, cmp), cmp)
  {
    if |s| > 0 {
      SortWithOrdered(s[..|s| - 1], cmp);
      InsertOrdered(s[|s| - 1], SortWith(s[..|s| - 1], cmp), cmp);
    }
  }

  /** The comparator each dropdown value selects; `collate` stands for
      `localeCompare` and `date` for the time `new Date(...)` reads from an
      upload date. Any other value leaves the order alone. */
  function SortComparator(sortKey: string, collate: (string, string) -> int, date: string -> int): Option<Comparator> {
    if sortKey == "name" then Some((a: Listed, b: Listed) => collate(a.video.title, b.video.title))
    else if sortKey == "nameDesc" then Some((a: Listed, b: Listed) => collate(b.video.title, a.video.title))
    else if sortKey == "dateNew" then Some((a: Listed, b: Listed) => date(b.video.uploadDate) - date(a.video.uploadDate))
    else if sortKey == "dateOld" then Some((a: Listed, b: Listed) => date(a.video.uploadDate) - date(b.video.uploadDate))
    else None
  }

  function SortBy(s: seq<Listed>, sortKey: string, collate: (string, string) -> int, date: string -> int): (r: seq<Listed>)
    ensures SortComparator(sortKey, collate, date).None? ==> r == s
  {
    match SortComparator(sortKey, collate, date)
    case None => s
    case Some(cmp) => SortWith(s, cmp)
  }

  /** Every dropdown value gives a permutation of the filtered list. */
  lemma SortByPermutes(s: seq<Listed>, sortKey: string, collate: (string, string) -> int, date: string -> int)
    ensures multiset(SortBy(s, sortKey, collate, date)) == multiset(s)
  {
    var c := SortComparator(sortKey, collate, date);
    if c.Some? {
      SortWithPermutes(s, c.value);
    }
  }

  /** "dateNew" puts newer uploads first and "dateOld" older ones first. */
  lemma SortByDate(s: seq<Listed>, collate: (string, string) -> int, date: string -> int)
    ensures var r := SortBy(s, "dateNew", collate, date);
      forall i :: 0 <= i < |r| - 1 ==> date(r[i + 1].video.uploadDate) <= date(r[i].video.uploadDate)
    ensures var r := SortBy(s, "dateOld", collate, date);
      forall i :: 0 <= i < |r| - 1 ==> date(r[i].video.uploadDate) <= date(r[i + 1].video.uploadDate)
  {
    var newer := SortComparator("dateNew", collate, date).value;
    var older := SortComparator("dateOld", collate, date).value;
    SortWithOrdered(s, newer);
    SortWithOrdered(s, older);
  }

  /** "name" sorts titles ascending and "nameDesc" descending, for a
      collation that is antisymmetric in sign. */
  lemma SortByName(s: seq<Listed>, collate: (string, string) -> int, date: string -> int)
    requires forall a, b :: collate(a, b) > 0 ==> collate(b, a) < 0
    ensures var r := SortBy(s, "name", collate, date);
      forall i :: 0 <= i < |r| - 1 ==> collate(r[i].video.title, r[i + 1].video.title) <= 0
    ensures var r := SortBy(s, "nameDesc", collate, date);
      forall i :: 0 <= i < |r| - 1 ==> collate(r[i + 1].video.title, r[i].video.title) <= 0
  {
    var up := SortComparator("name", collate, date).value;
    var down := SortComparator("nameDesc", collate, date).value;
    assert Antisymmetric(up) by {
      forall a, b | up(a, b) > 0 ensures up(b, a) < 0 {
        assert up(a, b) == collate(a.video.title, b.video.title);
      }
    }
    assert Antisymmetric(down) by {
      forall a, b | down(a, b) > 0 ensures down(b, a) < 0 {
        assert down(a, b) == collate(b.video.title, a.video.title);
      }
    }
    SortWithOrdered(s, up);
    SortWithOrdered(s, down);
  }

  // ---------------------------------------------------------------- applyFiltersAndSort

  /** `applyFiltersAndSort`: search, then the category chip, then the dropdown. */
  function ApplyFiltersAndSort(all: seq<Listed>, input: string, category: string, sortKey: string,
                               collate: (string, string) -> int, date: string -> int): seq<Listed> {
    SortBy(CategoryFilter(Search(all, input), category), sortKey, collate, date)
  }

  /** The grid shows each listed video that matches the search and the
      chip, as often as it is listed, and nothing else. */
  lemma ApplyFiltersAndSortContents(all: seq<Listed>, input: string, category: string, sortKey: string,
                                    collate: (string, string) -> int, date: string -> int)
    ensures multiset(ApplyFiltersAndSort(all, input, category, sortKey, collate, date))
         == multiset(CategoryFilter(Filter(all, Matching(Query(input))), category))
  {
    SearchIsFilter(all, input);
    SortByPermutes(CategoryFilter(Search(all, input), category), sortKey, collate, date);
  }

  // ---------------------------------------------------------------- renderRecommended

  function IsNotCurrent(currentId: string): Listed -> bool {
    (v: Listed) => v.video.Id() != currentId
  }

  /** `allVideos.filter(v => v.id !== currentId).slice(0, 20)`. */
  function Recommended(all: seq<Listed>, currentId: string): (r: seq<Listed>)
    ensures |r| <= 20
    ensures forall v :: v in r ==> v in all && v.video.Id() != currentId
    ensures |Filter(all, IsNotCurrent(currentId))| <= 20 ==>
              forall v :: v in all && v.video.Id() != currentId ==> v in r
  {
    var others := Filter(all, IsNotCurrent(currentId));
    assert forall v :: v in others ==> IsNotCurrent(currentId)(v);
    if |others| <= 20 then others else others[..20]
  }

  /** The recommendations are the first others, in the listing's order. */
  lemma RecommendedPrefix(all: seq<Listed>, currentId: string)
    ensures var others := Filter(all, IsNotCurrent(currentId));
      var r := Recommended(all, currentId);
      |r| == (if |others| < 20 then |others| else 20) && r == others[..|r|]
  {
  }

  // ---------------------------------------------------------------- autoplay

  /** The test `currentVideos.findIndex` applies. */
  function ListedHasId(id: string): Listed -> bool {
    (v: Listed) => v.video.Id() == id
  }

  /** The video played when one ends: the entry after its first occurrence
      in the grid, when the toggle is on and there is such an entry. */
  function AutoplayNext(current: seq<Listed>, id: string, toggle: bool): (r: Option<Listed>)
    ensures (forall v :: v in current ==> v.video.Id() != id) ==> r.None?
    ensures r.Some? ==> r.value in current[1..]
  {
    if !toggle then None
    else match FindIndex(current, ListedHasId(id))
      case None => None
      case Some(i) => if i + 1 < |current| then Some(current[i + 1]) else None
  }

  /** Autoplay plays `current[i + 1]` exactly when the toggle is on, `i` is
      the first position with the id, and it is not the last. */
  lemma AutoplayNextIff(current: seq<Listed>, id: string, toggle: bool, i: nat)
    requires i < |current| && current[i].video.Id() == id
    requires forall j :: 0 <= j < i ==> current[j].video.Id() != id
    ensures AutoplayNext(current, id, toggle) == if toggle && i + 1 < |current| then Some(current[i + 1]) else None
  {
    assert ListedHasId(id)(current[i]);
  }

  // ---------------------------------------------------------------- history and liked views

  function IsLiked(v: Listed): bool {
    v.isLiked
  }

  /** `showHistory`. */
  function ShowHistory(all: seq<Listed>): seq<Listed> {
    Filter(all, Watched)
  }

  /** `showLikedVideos`. */
  function ShowLiked(all: seq<Listed>): seq<Listed> {
    Filter(all, IsLiked)
  }

  function LikedIn(db: Db): Video -> bool {
    (v: Video) => v.Id() in db.likedVideos
  }

  function WatchedIn(db: Db): Video -> bool {
    (v: Video) => ResumeTime(db, v.Id()) > 0.0
  }

  lemma JoinTail(catalog: seq<Video>, db: Db)
    requires |catalog| > 0
    ensures Join(catalog, db) == [ListVideo(db, catalog[0])] + Join(catalog[1..], db)
  {
  }

  /** On a fresh listing, the liked view is the listing of exactly the
      catalog entries whose id is in the liked list, in catalog order. */
  lemma {:induction false} LikedViewIsLikedCatalog(catalog: seq<Video>, db: Db)
    ensures ShowLiked(Join(catalog, db)) == Join(Filter(catalog, LikedIn(db)), db)
  {
    if |catalog| > 0 {
      JoinTail(catalog, db);
      LikedViewIsLikedCatalog(catalog[1..], db);
      var j := Join(catalog, db);
      assert j[1..] == Join(catalog[1..], db);
      if LikedIn(db)(catalog[0]) {
        JoinTail(Filter(catalog, LikedIn(db)), db);
      }
    }
  }

  /** On a fresh listing, the history view is the listing of exactly the
      catalog entries with a positive recorded position, in catalog order. */
  lemma {:induction false} HistoryViewIsWatchedCatalog(catalog: seq<Video>, db: Db)
    ensures ShowHistory(Join(catalog, db)) == Join(Filter(catalog, WatchedIn(db)), db)
  {
    if |catalog| > 0 {
      JoinTail(catalog, db);
      HistoryViewIsWatchedCatalog(catalog[1..], db);
      var j := Join(catalog, db);
      assert j[1..] == Join(catalog[1..], db);
      if WatchedIn(db)(catalog[0]) {
        JoinTail(Filter(catalog, WatchedIn(db)), db);
      }
    }
  }
}

=== FILE: library.dfy ===
/** The library scan of server.js: the scan roots, the video-file filter,
    duration formatting, and the catalog built from one pass over an
    abstract directory listing. */
module Library {
  import opened Options
  import opened Text
  import opened Seqs

  // ---------------------------------------------------------------- scan roots

  /** `path.join(dir, name)` on POSIX for a directory path that is already
      normal (no empty, `.` or `..` segment) and a name that is one segment:
      an empty directory adds nothing, otherwise one '/' separates the two. */
  function JoinPath(dir: string, name: string): string {
    if |dir| == 0 then name
    else if dir[|dir| - 1] == '/' then dir + name else dir + "/" + name
  }

  /** The three built-in roots: `~/Downloads`, `~/Desktop/LocalTube/videos`
      and the working directory. */
  function DefaultDirs(home: string, cwd: string): seq<string> {
    [ JoinPath(home, "Downloads"),
      JoinPath(JoinPath(JoinPath(home, "Desktop"), "LocalTube"), "videos"),
      cwd ]
  }

  /** `getDirsToScan`: the default roots followed by the custom folders, each
      path string once, in order of first occurrence. */
  function DirsToScan(home: string, cwd: string, customFolders: seq<string>): (dirs: seq<string>)
    ensures NoDuplicates(dirs)
    ensures forall d :: d in dirs <==> d in DefaultDirs(home, cwd) || d in customFolders
    ensures |Dedup(DefaultDirs(home, cwd))| <= |dirs|
    ensures dirs[..|Dedup(DefaultDirs(home, cwd))|] == Dedup(DefaultDirs(home, cwd))
  {
    DedupExtends(DefaultDirs(home, cwd), customFolders);
    Dedup(DefaultDirs(home, cwd) + customFolders)
  }

  /** For every home, working directory and folder list: the distinct default
      roots in order, then the custom folders in order of first occurrence,
      leaving out any that is already a default root. */
  lemma DirsToScanReference(home: string, cwd: string, customFolders: seq<string>)
    ensures DirsToScan(home, cwd, customFolders)
         == Dedup(DefaultDirs(home, cwd)) + Filter(Dedup(customFolders), Outside(DefaultDirs(home, cwd)))
  {
    DedupConcat(DefaultDirs(home, cwd), customFolders);
  }

  /** When the three defaults are distinct paths they are the first three roots,
      followed by the new custom folders in order of first occurrence; custom
      folders that are distinct and new follow them unchanged. */
  lemma DirsToScanOrder(home: string, cwd: string, customFolders: seq<string>)
    requires NoDuplicates(DefaultDirs(home, cwd))
    ensures |DirsToScan(home, cwd, customFolders)| >= 3
    ensures DirsToScan(home, cwd, customFolders)[..3] == DefaultDirs(home, cwd)
    ensures DirsToScan(home, cwd, customFolders)
         == DefaultDirs(home, cwd) + Filter(Dedup(customFolders), Outside(DefaultDirs(home, cwd)))
    ensures NoDuplicates(DefaultDirs(home, cwd) + customFolders) ==>
              DirsToScan(home, cwd, customFolders) == DefaultDirs(home, cwd) + customFolders
  {
    DedupDistinct(DefaultDirs(home, cwd));
    DirsToScanReference(home, cwd, customFolders);
    if NoDuplicates(DefaultDirs(home, cwd) + customFolders) {
      DedupDistinct(DefaultDirs(home, cwd) + customFolders);
    }
  }

  // ---------------------------------------------------------------- extensions

  const VideoExtensions: seq<string> := [".mp4", ".mkv", ".webm", ".avi", ".mov"]

  function StripTrailingSlashes(p: string): (r: string)
    ensures '/' !in p ==> r == p
  {
    if |p| > 0 && p[|p| - 1] == '/' then StripTrailingSlashes(p[..|p| - 1]) else p
  }

  /** The text after the last '/'. */
  function LastSegment(p: string): (r: string)
    ensures '/' !in p ==> r == p
  {
    if |p| == 0 || p[|p| - 1] == '/' then ""
    else
      assert '/' !in p ==> '/' !in p[..|p| - 1] by {
        assert forall i :: 0 <= i < |p| - 1 ==> p[..|p| - 1][i] == p[i];
      }
      assert p == p[..|p| - 1] + [p[|p| - 1]];
      LastSegment(p[..|p| - 1]) + [p[|p| - 1]]
  }

  /** Index of the last occurrence of `c`. */
  function LastIndexOf(s: string, c: char): (r: Option<nat>)
    ensures r.None? <==> c !in s
    ensures r.Some? ==> r.value < |s| && s[r.value] == c && c !in s[r.value + 1..]
  {
    if |s| == 0 then None
    else if s[|s| - 1] == c then Some(|s| - 1)
    else
      assert s == s[..|s| - 1] + [s[|s| - 1]];
      var r := LastIndexOf(s[..|s| - 1], c);
      assert r.Some? ==> s[r.value + 1..] == s[..|s| - 1][r.value + 1..] + [s[|s| - 1]];
      r
  }

  /** Node's `path.extname`: from the last '.' of the last segment (trailing
      separators ignored), or "" when that segment has no '.', starts with its
      only '.', or is "..". */
  function Extname(p: string): string {
    ExtOfSegment(LastSegment(StripTrailingSlashes(p)))
  }

  /** The extension of one path segment. */
  function ExtOfSegment(base: string): (ext: string)
    ensures ext == "" || ext[0] == '.'
  {
    match LastIndexOf(base, '.')
    case None => ""
    case Some(k) => if k == 0 || base == ".." then "" else base[k..]
  }

  /** `isVideo`: the lower-cased extension is one of the five supported ones. */
  predicate IsVideo(filename: string) {
    ToLower(Extname(filename)) in VideoExtensions
  }

  /** For a directory entry name (no '/'), `isVideo` holds exactly when some
      '.' that is not the first character and is followed by no other '.'
      starts a suffix that lower-cases to a supported extension. */
  lemma IsVideoIff(name: string)
    requires '/' !in name
    ensures IsVideo(name) <==>
      exists k :: 0 < k < |name| && name[k] == '.' && '.' !in name[k + 1..]
                  && ToLower(name[k..]) in VideoExtensions
  {
    assert Extname(name) == ExtOfSegment(name);
    if IsVideo(name) {
      var last := LastIndexOf(name, '.').value;
      assert ToLower(Extname(name)) != "";
      ExtensionOf(name, last);
      assert 0 < last < |name| && name[last] == '.' && '.' !in name[last + 1..]
             && ToLower(name[last..]) in VideoExtensions;
    }
    if exists k :: 0 < k < |name| && name[k] == '.' && '.' !in name[k + 1..]
                   && ToLower(name[k..]) in VideoExtensions {
      var k :| 0 < k < |name| && name[k] == '.' && '.' !in name[k + 1..]
               && ToLower(name[k..]) in VideoExtensions;
      ExtensionOf(name, k);
      ExtensionsLong(ToLower(name[k..]));
    }
  }

  /** Every supported extension has at least four characters. */
  lemma ExtensionsLong(l: string)
    requires l in VideoExtensions
    ensures |l| >= 4
  {
  }

  /** The extension is compared case-insensitively. */
  lemma IsVideoIgnoresCase()
    ensures IsVideo("Holiday.MP4")
  {
    ExtensionOf("Holiday.MP4", 7);
    LowerCaseOf(".MP4", ".mp4");
  }

  /** Only the last extension counts. */
  lemma IsVideoLastExtension()
    ensures !IsVideo("clip.mp4.part")
  {
    ExtensionOf("clip.mp4.part", 8);
    PartUnchanged();
  }

  /** ".part" has no capital to lower. */
  lemma PartUnchanged()
    ensures ToLower(".part") == ".part"
  {
    LowerCaseOf(".part", ".part");
  }

  /** A name that is nothing but a leading '.' and an extension has no extension. */
  lemma IsVideoDotfile()
    ensures !IsVideo(".mp4")
  {
    ExtensionOf(".mp4", 0);
  }

  /** The extension of a name without '/' whose last '.' is at `k`. */
  lemma ExtensionOf(name: string, k: nat)
    requires '/' !in name && k < |name| && name[k] == '.' && '.' !in name[k + 1..]
    ensures Extname(name) == if k == 0 || name == ".." then "" else name[k..]
  {
    assert Extname(name) == ExtOfSegment(name);
  }

  // ---------------------------------------------------------------- duration

  /** `formatDuration` on a whole number of seconds: `H:MM:SS` from one hour on,
      `M:SS` below, "0:00" for zero. */
  function FormatDuration(seconds: nat): string {
    if seconds == 0 then "0:00"
    else
      var h := seconds / 3600;
      var m := (seconds % 3600) / 60;
      var s := seconds % 60;
      if h > 0 then NatToString(h) + ":" + PadStart2(NatToString(m)) + ":" + PadStart2(NatToString(s))
      else NatToString(m) + ":" + PadStart2(NatToString(s))
  }

  /** Reading `H:MM:SS` or `M:SS` fields back as seconds, base 60. */
  function ClockValue(fields: seq<string>): nat
    requires forall i :: 0 <= i < |fields| ==> AllDigits(fields[i])
  {
    if |fields| == 0 then 0
    else 60 * ClockValue(fields[..|fields| - 1]) + DigitsValue(fields[|fields| - 1])
  }

  /** Two fields without ':' joined by ':' split back into those two fields. */
  lemma SplitTwoFields(a: string, b: string)
    requires ':' !in a && ':' !in b
    ensures Split(a + ":" + b, ':') == [a, b]
  {
    assert a + ":" + b == a + [':'] + b;
    SplitAppend(a, ':', b);
    SplitNoSeparator(a, ':');
  }

  /** Three fields without ':' joined by ':' split back into those three fields. */
  lemma SplitThreeFields(a: string, b: string, c: string)
    requires ':' !in a && ':' !in b && ':' !in c
    ensures Split(a + ":" + b + ":" + c, ':') == [a, b, c]
  {
    assert a + ":" + b + ":" + c == (a + ":" + b) + [':'] + c;
    SplitAppend(a + ":" + b, ':', c);
    SplitTwoFields(a, b);
  }

  lemma ClockValueTwo(a: string, b: string)
    requires AllDigits(a) && AllDigits(b)
    ensures ClockValue([a, b]) == 60 * DigitsValue(a) + DigitsValue(b)
  {
    assert [a, b][..1] == [a];
    assert ClockValue([a]) == DigitsValue(a) by {
      assert [a][..0] == [];
    }
  }

  lemma ClockValueThree(a: string, b: string, c: string)
    requires AllDigits(a) && AllDigits(b) && AllDigits(c)
    ensures ClockValue([a, b, c]) == 60 * (60 * DigitsValue(a) + DigitsValue(b)) + DigitsValue(c)
  {
    assert [a, b, c][..2] == [a, b];
    ClockValueTwo(a, b);
  }

  /** Clock fields: digits only, the first without a leading zero, and each
      after the first exactly two digits worth less than 60. */
  predicate ClockFields(f: seq<string>) {
    && (forall i :: 0 <= i < |f| ==> |f[i]| > 0 && AllDigits(f[i]))
    && (|f| > 0 ==> LeadField(f[0]))
    && (forall i :: 1 <= i < |f| ==> SixtyField(f[i]))
  }

  /** A leading field: digits without a leading zero. */
  predicate LeadField(x: string) {
    0 < |x| && AllDigits(x) && (|x| == 1 || x[0] != '0')
  }

  /** A later field: two digits worth less than 60. */
  predicate SixtyField(x: string) {
    |x| == 2 && AllDigits(x) && DigitsValue(x) < 60
  }

  /** The leading field counts whole hours in `H:MM:SS` and whole minutes in `M:SS`. */
  function LeadUnit(seconds: nat): nat {
    if seconds >= 3600 then 3600 else 60
  }

  /** The duration text has three fields from one hour on and two below, the
      fields are clock fields, and reading them back in base 60 gives the
      seconds again. */
  lemma FormatDurationRoundTrip(seconds: nat)
    ensures var f := Split(FormatDuration(seconds), ':');
      && |f| == (if seconds >= 3600 then 3 else 2)
      && ClockFields(f)
      && DigitsValue(f[0]) == seconds / LeadUnit(seconds)
      && ClockValue(f) == seconds
  {
    if seconds == 0 {
      RoundTripZero();
    } else if seconds >= 3600 {
      RoundTripHours(seconds);
    } else {
      RoundTripMinutes(seconds);
    }
  }

  /** Hours, minutes and seconds recombine to the total. */
  lemma ClockArithmetic(seconds: nat)
    ensures (seconds % 3600) / 60 < 60
    ensures seconds == 60 * (60 * (seconds / 3600) + (seconds % 3600) / 60) + seconds % 60
  {
    var h, r := seconds / 3600, seconds % 3600;
    assert seconds == 3600 * h + r;
    var m, s := r / 60, r % 60;
    assert r == 60 * m + s;
    assert seconds == 60 * (60 * h + m) + s;
    ModSixty(seconds, 60 * h + m, s);
  }

  lemma ModSixty(x: nat, q: nat, r: nat)
    requires x == 60 * q + r && r < 60
    ensures x % 60 == r
  {
  }

  lemma RoundTripHours(seconds: nat)
    requires seconds >= 3600
    ensures var f := Split(FormatDuration(seconds), ':');
      |f| == 3 && ClockFields(f) && DigitsValue(f[0]) == seconds / 3600 && ClockValue(f) == seconds
  {
    var h := seconds / 3600;
    var m := (seconds % 3600) / 60;
    var s := seconds % 60;
    var hs, ms, ss := NatToString(h), PadStart2(NatToString(m)), PadStart2(NatToString(s));
    assert FormatDuration(seconds) == hs + ":" + ms + ":" + ss;
    ClockArithmetic(seconds);
    HoursFields(h, m, s);
    DigitsExclude(hs, ':');
    DigitsExclude(ms, ':');
    DigitsExclude(ss, ':');
    SplitThreeFields(hs, ms, ss);
  }

  /** Rendered hours, minutes and seconds are clock fields worth their values. */
  lemma HoursFields(h: nat, m: nat, s: nat)
    requires m < 60 && s < 60
    ensures var f := [NatToString(h), PadStart2(NatToString(m)), PadStart2(NatToString(s))];
      ClockFields(f) && DigitsValue(f[0]) == h && ClockValue(f) == 60 * (60 * h + m) + s
  {
    RenderedLead(h);
    RenderedSixty(m);
    RenderedSixty(s);
    ThreeClockFields(NatToString(h), PadStart2(NatToString(m)), PadStart2(NatToString(s)));
  }

  /** A rendered number is a leading field worth that number. */
  lemma RenderedLead(n: nat)
    ensures LeadField(NatToString(n)) && DigitsValue(NatToString(n)) == n
  {
    DigitsValueOfNatToString(n);
  }

  /** A padded number below 60 is a later field worth that number. */
  lemma RenderedSixty(n: nat)
    requires n < 60
    ensures SixtyField(PadStart2(NatToString(n))) && DigitsValue(PadStart2(NatToString(n))) == n
  {
    TwoDigitsValue(n);
  }

  /** A leading field and two later fields are clock fields read back in base 60. */
  lemma ThreeClockFields(a: string, b: string, c: string)
    requires LeadField(a) && SixtyField(b) && SixtyField(c)
    ensures ClockFields([a, b, c])
    ensures ClockValue([a, b, c]) == 60 * (60 * DigitsValue(a) + DigitsValue(b)) + DigitsValue(c)
  {
    ClockValueThree(a, b, c);
  }

  /** A leading field and a later field are clock fields read back in base 60. */
  lemma TwoClockFields(a: string, b: string)
    requires LeadField(a) && SixtyField(b)
    ensures ClockFields([a, b])
    ensures ClockValue([a, b]) == 60 * DigitsValue(a) + DigitsValue(b)
  {
    ClockValueTwo(a, b);
  }

  lemma RoundTripZero()
    ensures var f := Split(FormatDuration(0), ':');
      |f| == 2 && ClockFields(f) && DigitsValue(f[0]) == 0 && ClockValue(f) == 0
  {
    assert FormatDuration(0) == "0" + ":" + "00";
    SplitTwoFields("0", "00");
    ZeroFields();
  }

  lemma ZeroFields()
    ensures ClockFields(["0", "00"]) && DigitsValue("0") == 0 && ClockValue(["0", "00"]) == 0
  {
    assert DigitsValue("00") == 0 by {
      assert "00"[..1] == "0";
    }
    ClockValueTwo("0", "00");
  }

  lemma RoundTripMinutes(seconds: nat)
    requires 0 < seconds < 3600
    ensures var f := Split(FormatDuration(seconds), ':');
      |f| == 2 && ClockFields(f) && DigitsValue(f[0]) == seconds / 60 && ClockValue(f) == seconds
  {
    var m := seconds / 60;
    var s := seconds % 60;
    var mt, ss := NatToString(m), PadStart2(NatToString(s));
    assert FormatDuration(seconds) == mt + ":" + ss;
    MinutesFields(m, s);
    DigitsExclude(mt, ':');
    DigitsExclude(ss, ':');
    SplitTwoFields(mt, ss);
  }

  /** Rendered minutes and seconds are clock fields worth their values. */
  lemma MinutesFields(m: nat, s: nat)
    requires s < 60
    ensures var f := [NatToString(m), PadStart2(NatToString(s))];
      ClockFields(f) && DigitsValue(f[0]) == m && ClockValue(f) == 60 * m + s
  {
    RenderedLead(m);
    RenderedSixty(s);
    TwoClockFields(NatToString(m), PadStart2(NatToString(s)));
  }

  lemma FormatDurationExamples()
    ensures FormatDuration(0) == "0:00"
    ensures FormatDuration(65) == "1:05"
    ensures FormatDuration(3725) == "1:02:05"
  {
    SmallFields();
    assert FormatDuration(65) == NatToString(1) + ":" + PadStart2(NatToString(5));
    assert FormatDuration(3725) == NatToString(1) + ":" + PadStart2(NatToString(2)) + ":" + PadStart2(NatToString(5));
  }

  lemma SmallFields()
    ensures NatToString(1) == "1"
    ensures PadStart2(NatToString(2)) == "02"
    ensures PadStart2(NatToString(5)) == "05"
  {
    assert NatToString(2) == "2";
    assert PadStart2("2") == "02";
    assert NatToString(5) == "5";
    assert PadStart2("5") == "05";
  }


  /** `getDuration`: the probed duration formatted, "0:00" when probing fails. */
  function DurationText(probe: Option<nat>): string {
    match probe
    case None => "0:00"
    case Some(d) => FormatDuration(d)
  }

  // ---------------------------------------------------------------- catalog

  /** What `fs.statSync` reports: it throws (`StatFails`) or describes the entry. */
  datatype Stat = StatFails | Stat(isFile: bool, birthDate: string)

  /** One name from `fs.readdirSync`, with what `statSync` and the duration
      probe would say about it. */
  datatype DirEntry = DirEntry(name: string, stat: Stat, probe: Option<nat>)

  /** `readdirSync` on an existing path either throws or lists its entries. */
  datatype Listing = Unreadable | Listing(entries: seq<DirEntry>)

  /** The existing paths that `existsSync` sees, with their listings. */
  type FileSystem = map<string, Listing>

  /** One catalog entry. The id and the duration text are kept as the values
      they are rendered from: the counter value behind `v<k>` and the probed
      duration (the random view count is not modelled). */
  datatype Video = Video(number: nat, title: string, filename: string, path: string,
                         uploadDate: string, probe: Option<nat>)
  {
    /** The `id` field, `v<k>`. */
    function Id(): string { VideoId(number) }

    /** The `duration` field. */
    function Duration(): string { DurationText(probe) }
  }

  /** The id the scan gives to the k-th video it finds. */
  function VideoId(k: nat): string {
    "v" + NatToString(k)
  }

  lemma VideoIdInjective(a: nat, b: nat)
    ensures VideoId(a) == VideoId(b) <==> a == b
  {
    NatToStringInjective(a, b);
    if VideoId(a) == VideoId(b) {
      assert VideoId(a)[1..] == NatToString(a);
      assert VideoId(b)[1..] == NatToString(b);
    }
  }

  /** The test `find` and `findIndex` apply to look a video up by id. */
  function HasId(id: string): Video -> bool {
    (v: Video) => v.Id() == id
  }

  /** `i` is the position `find` and `findIndex` stop at when looking for `id`. */
  predicate FirstWithId(catalog: seq<Video>, id: string, i: nat) {
    i < |catalog| && catalog[i].Id() == id && forall j :: 0 <= j < i ==> catalog[j].Id() != id
  }

  lemma FindFirst(catalog: seq<Video>, id: string, i: nat)
    requires FirstWithId(catalog, id, i)
    ensures FindIndex(catalog, HasId(id)) == Some(i)
  {
    assert HasId(id)(catalog[i]);
  }

  /** No two catalog entries share an id. */
  ghost predicate IdsDistinct(catalog: seq<Video>) {
    forall i, j :: 0 <= i < j < |catalog| ==> catalog[i].Id() != catalog[j].Id()
  }

  /** In a catalog with distinct ids, any entry carrying the id is the one found. */
  lemma DistinctFirst(catalog: seq<Video>, i: nat)
    requires IdsDistinct(catalog) && i < |catalog|
    ensures FirstWithId(catalog, catalog[i].Id(), i)
  {
  }

  predicate Readable(fs: FileSystem, dir: string) {
    dir in fs && fs[dir].Listing?
  }

  /** The test the scan applies to entry names. The catalog uses `IsVideo`;
      the facts about the scan loops hold for any such test. */
  type NameTest = string -> bool

  /** An entry the scan adds to the catalog: an accepted name on a regular file. */
  predicate IsVideoFile(e: DirEntry, accept: NameTest) {
    accept(e.name) && e.stat.Stat? && e.stat.isFile
  }

  /** An entry whose `statSync` throws inside the `try`, ending its directory. */
  predicate StatAborts(e: DirEntry, accept: NameTest) {
    accept(e.name) && e.stat.StatFails?
  }

  function Kept(accept: NameTest): DirEntry -> bool {
    e => IsVideoFile(e, accept)
  }

  function Aborts(accept: NameTest): DirEntry -> bool {
    e => StatAborts(e, accept)
  }

  function MakeVideo(dir: string, e: DirEntry, k: nat): Video
    requires e.stat.Stat?
  {
    Video(k, e.name, e.name, JoinPath(dir, e.name), e.stat.birthDate, e.probe)
  }

  /** The inner loop of `scanDirectories` over one directory listing: every
      regular file with an accepted name becomes a catalog entry numbered
      from `next`, in listing order, until an accepted name whose `statSync`
      throws makes the `try` abandon the rest of the directory. */
  function ScanDir(dir: string, es: seq<DirEntry>, next: nat, accept: NameTest): (videos: seq<Video>)
    ensures |videos| <= |es|
    decreases |es|
  {
    if |es| == 0 then []
    else if !accept(es[0].name) then ScanDir(dir, es[1..], next, accept)
    else match es[0].stat
      case StatFails => []
      case Stat(isFile, _) =>
        if isFile then [MakeVideo(dir, es[0], next)] + ScanDir(dir, es[1..], next + 1, accept)
        else ScanDir(dir, es[1..], next, accept)
  }

  /** Where a directory's scan stops: the first accepted name whose stat throws. */
  function Cutoff(es: seq<DirEntry>, accept: NameTest): (k: nat)
    ensures k <= |es|
    ensures forall i :: 0 <= i < k ==> !StatAborts(es[i], accept)
    ensures k < |es| ==> StatAborts(es[k], accept)
  {
    FindIndex(es, Aborts(accept)).GetOr(|es|)
  }

  /** The cutoff moves by one when the first entry does not abort. */
  lemma CutoffStep(es: seq<DirEntry>, accept: NameTest)
    requires |es| > 0 && !StatAborts(es[0], accept)
    ensures Cutoff(es, accept) == Cutoff(es[1..], accept) + 1
    ensures es[..Cutoff(es, accept)] == [es[0]] + es[1..][..Cutoff(es[1..], accept)]
  {
    assert !Aborts(accept)(es[0]);
    match FindIndex(es[1..], Aborts(accept))
    case None =>
    case Some(j) =>
  }

  /** Catalog entries for a list of regular files, numbered from `next`. */
  function Numbered(dir: string, files: seq<DirEntry>, next: nat): (videos: seq<Video>)
    requires forall i :: 0 <= i < |files| ==> files[i].stat.Stat?
    ensures |videos| == |files|
    decreases |files|
  {
    if |files| == 0 then []
    else [MakeVideo(dir, files[0], next)] + Numbered(dir, files[1..], next + 1)
  }

  /** Independent reading of the inner loop: number the video files of the
      listing that come before the cutoff. */
  lemma {:induction false} ScanDirReference(dir: string, es: seq<DirEntry>, next: nat, accept: NameTest)
    ensures ScanDir(dir, es, next, accept) == Numbered(dir, Filter(es[..Cutoff(es, accept)], Kept(accept)), next)
    decreases |es|
  {
    if |es| > 0 {
      var e := es[0];
      var rest := es[1..];
      if StatAborts(e, accept) {
        assert Aborts(accept)(es[0]);
      } else {
        CutoffStep(es, accept);
        var prefix := rest[..Cutoff(rest, accept)];
        FilterConcat([e], prefix, Kept(accept));
        assert [e][1..] == [];
        if IsVideoFile(e, accept) {
          ScanDirReference(dir, rest, next + 1, accept);
        } else {
          ScanDirReference(dir, rest, next, accept);
        }
      }
    }
  }

  /** What one root contributes: nothing when it is missing or unreadable. */
  function RootVideos(fs: FileSystem, dir: string, next: nat, accept: NameTest): (videos: seq<Video>)
    ensures !Readable(fs, dir) ==> videos == []
  {
    if Readable(fs, dir) then ScanDir(dir, fs[dir].entries, next, accept) else []
  }

  /** The shape of the outer loop of `scanDirectories`: each root in order
      contributes `root(dir, counter)`, and the counter carries over from one
      root to the next. */
  function Chain<T>(dirs: seq<string>, next: nat, root: (string, nat) -> seq<T>): (r: seq<T>)
    ensures |dirs| == 0 ==> r == []
    decreases |dirs|
  {
    if |dirs| == 0 then []
    else
      var here := root(dirs[0], next);
      here + Chain(dirs[1..], next + |here|, root)
  }

  /** Running the outer loop over two lists of roots one after the other is
      running it over their concatenation. */
  lemma {:induction false} ChainAppend<T>(a: seq<string>, b: seq<string>, next: nat, root: (string, nat) -> seq<T>)
    ensures Chain(a + b, next, root) == Chain(a, next, root) + Chain(b, next + |Chain(a, next, root)|, root)
    decreases |a|
  {
    if |a| == 0 {
      assert a + b == b;
    } else {
      assert (a + b)[1..] == a[1..] + b;
      ChainAppend(a[1..], b, next + |root(a[0], next)|, root);
    }
  }

  /** A root that contributes nothing can be dropped without changing the result. */
  lemma {:induction false} ChainSkipsEmpty<T>(dirs: seq<string>, next: nat, root: (string, nat) -> seq<T>, i: nat)
    requires i < |dirs| && forall n :: root(dirs[i], n) == []
    ensures Chain(dirs[..i] + dirs[i + 1..], next, root) == Chain(dirs, next, root)
    decreases i
  {
    if i == 0 {
      assert dirs[..0] + dirs[1..] == dirs[1..];
      assert root(dirs[0], next) == [];
    } else {
      var tail := dirs[1..];
      assert (dirs[..i] + dirs[i + 1..])[1..] == tail[..i - 1] + tail[i..];
      ChainSkipsEmpty(tail, next + |root(dirs[0], next)|, root, i - 1);
    }
  }

  /** Every element of the result comes from some root at some counter value. */
  lemma {:induction false} ChainMember<T>(dirs: seq<string>, next: nat, root: (string, nat) -> seq<T>, x: T)
    requires x in Chain(dirs, next, root)
    ensures exists j, n :: 0 <= j < |dirs| && x in root(dirs[j], n)
    decreases |dirs|
  {
    if x !in root(dirs[0], next) {
      ChainMember(dirs[1..], next + |root(dirs[0], next)|, root, x);
      var j, n :| 0 <= j < |dirs[1..]| && x in root(dirs[1..][j], n);
      assert x in root(dirs[j + 1], n);
    }
  }

  /** The counter value when the outer loop reaches root `j`. */
  function CounterAt<T>(dirs: seq<string>, next: nat, root: (string, nat) -> seq<T>, j: nat): nat
    requires j <= |dirs|
    decreases j
  {
    if j == 0 then next else CounterAt(dirs[1..], next + |root(dirs[0], next)|, root, j - 1)
  }

  /** Every root's contribution, at the counter value the loop reaches it
      with, is part of the result. */
  lemma {:induction false} ChainIncludes<T>(dirs: seq<string>, next: nat, root: (string, nat) -> seq<T>, j: nat, x: T)
    requires j < |dirs| && x in root(dirs[j], CounterAt(dirs, next, root, j))
    ensures x in Chain(dirs, next, root)
    decreases j
  {
    if j > 0 {
      ChainIncludes(dirs[1..], next + |root(dirs[0], next)|, root, j - 1, x);
    }
  }

  /** The catalog contribution of each root, as the outer loop sees it. */
  function Roots(fs: FileSystem, accept: NameTest): (string, nat) -> seq<Video> {
    (dir: string, next: nat) => RootVideos(fs, dir, next, accept)
  }

  /** The outer loop of `scanDirectories` over the given roots. */
  function ScanDirs(dirs: seq<string>, fs: FileSystem, next: nat, accept: NameTest): seq<Video> {
    Chain(dirs, next, Roots(fs, accept))
  }

  /** `scanDirectories`: the catalog built from the roots of `getDirsToScan`
      with the `isVideo` test, numbered from 1. */
  function Scan(home: string, cwd: string, customFolders: seq<string>, fs: FileSystem): seq<Video> {
    ScanDirs(DirsToScan(home, cwd, customFolders), fs, 1, IsVideo)
  }

  /** Entries numbered consecutively from `next`. */
  ghost predicate NumberedFrom(videos: seq<Video>, next: nat) {
    forall i :: 0 <= i < |videos| ==> videos[i].number == next + i
  }

  /** Within one directory the counter advances by one per catalog entry. */
  lemma {:induction false} ScanDirNumbers(dir: string, es: seq<DirEntry>, next: nat, accept: NameTest)
    ensures NumberedFrom(ScanDir(dir, es, next, accept), next)
    decreases |es|
  {
    if |es| > 0 && accept(es[0].name) && es[0].stat.Stat? {
      if es[0].stat.isFile {
        var videos := ScanDir(dir, es, next, accept);
        var rest := ScanDir(dir, es[1..], next + 1, accept);
        ScanDirNumbers(dir, es[1..], next + 1, accept);
        assert videos == [MakeVideo(dir, es[0], next)] + rest;
        forall i | 0 < i < |videos| ensures videos[i].number == next + i {
          assert videos[i] == rest[i - 1];
        }
      } else {
        ScanDirNumbers(dir, es[1..], next, accept);
      }
    } else if |es| > 0 && !accept(es[0].name) {
      ScanDirNumbers(dir, es[1..], next, accept);
    }
  }

  /** Across roots the counter carries over: the catalog is numbered
      consecutively from `next`. */
  lemma {:induction false} ScanNumbers(dirs: seq<string>, fs: FileSystem, next: nat, accept: NameTest)
    ensures NumberedFrom(ScanDirs(dirs, fs, next, accept), next)
    decreases |dirs|
  {
    if |dirs| > 0 {
      var here := RootVideos(fs, dirs[0], next, accept);
      var rest := ScanDirs(dirs[1..], fs, next + |here|, accept);
      var videos := ScanDirs(dirs, fs, next, accept);
      if Readable(fs, dirs[0]) {
        ScanDirNumbers(dirs[0], fs[dirs[0]].entries, next, accept);
      }
      ScanNumbers(dirs[1..], fs, next + |here|, accept);
      assert videos == here + rest;
      forall i | 0 <= i < |videos| ensures videos[i].number == next + i {
        if i >= |here| {
          assert videos[i] == rest[i - |here|];
        }
      }
    }
  }

  /** Ids within one catalog are pairwise distinct. */
  lemma ScanIdsDistinct(dirs: seq<string>, fs: FileSystem, next: nat, accept: NameTest)
    ensures IdsDistinct(ScanDirs(dirs, fs, next, accept))
  {
    var videos := ScanDirs(dirs, fs, next, accept);
    ScanNumbers(dirs, fs, next, accept);
    forall i, j | 0 <= i < j < |videos| ensures videos[i].Id() != videos[j].Id() {
      VideoIdInjective(next + i, next + j);
    }
  }

  /** The catalog of the server is numbered `v1`, `v2`, ... in scan order. */
  lemma CatalogNumbers(home: string, cwd: string, customFolders: seq<string>, fs: FileSystem)
    ensures var catalog := Scan(home, cwd, customFolders, fs);
      forall i :: 0 <= i < |catalog| ==> catalog[i].Id() == VideoId(i + 1)
  {
    ScanNumbers(DirsToScan(home, cwd, customFolders), fs, 1, IsVideo);
  }

  /** Scanning two lists of roots one after the other is scanning their concatenation. */
  lemma ScanDirsAppend(a: seq<string>, b: seq<string>, fs: FileSystem, next: nat, accept: NameTest)
    ensures ScanDirs(a + b, fs, next, accept)
         == ScanDirs(a, fs, next, accept) + ScanDirs(b, fs, next + |ScanDirs(a, fs, next, accept)|, accept)
  {
    ChainAppend(a, b, next, Roots(fs, accept));
  }

  /** A root that does not exist or cannot be listed contributes nothing, and
      dropping it changes neither the entries nor their ids. */
  lemma ScanSkipsUnreadable(dirs: seq<string>, fs: FileSystem, next: nat, accept: NameTest, i: nat)
    requires i < |dirs| && !Readable(fs, dirs[i])
    ensures ScanDirs(dirs[..i] + dirs[i + 1..], fs, next, accept) == ScanDirs(dirs, fs, next, accept)
  {
    ChainSkipsEmpty(dirs, next, Roots(fs, accept), i);
  }

  /** Every entry of one directory's scan is a video file of its listing. */
  lemma {:induction false} ScanDirProvenance(dir: string, es: seq<DirEntry>, next: nat, accept: NameTest, v: Video)
    requires v in ScanDir(dir, es, next, accept)
    ensures exists e :: e in es && IsVideoFile(e, accept) && v == MakeVideo(dir, e, v.number)
    decreases |es|
  {
    var e := es[0];
    if accept(e.name) && e.stat.Stat? && e.stat.isFile && v == MakeVideo(dir, e, next) {
    } else {
      var n := if IsVideoFile(e, accept) then next + 1 else next;
      ScanDirProvenance(dir, es[1..], n, accept, v);
      var x :| x in es[1..] && IsVideoFile(x, accept) && v == MakeVideo(dir, x, v.number);
      assert x in es;
    }
  }

  /** Every catalog entry is a regular file with an accepted name, listed in
      a readable root, and its title, file name and path come from that root
      and that entry. */
  lemma ScanProvenance(dirs: seq<string>, fs: FileSystem, next: nat, accept: NameTest, v: Video)
    requires v in ScanDirs(dirs, fs, next, accept)
    ensures exists d, e :: d in dirs && Readable(fs, d) && e in fs[d].entries && IsVideoFile(e, accept)
                        && v == MakeVideo(d, e, v.number)
  {
    ChainMember(dirs, next, Roots(fs, accept), v);
    var j, n :| 0 <= j < |dirs| && v in Roots(fs, accept)(dirs[j], n);
    ScanDirProvenance(dirs[j], fs[dirs[j]].entries, n, accept, v);
  }

  /** Every catalog entry of the server names a video file. */
  lemma CatalogIsVideos(home: string, cwd: string, customFolders: seq<string>, fs: FileSystem, v: Video)
    requires v in Scan(home, cwd, customFolders, fs)
    ensures IsVideo(v.filename) && v.title == v.filename
  {
    ScanProvenance(DirsToScan(home, cwd, customFolders), fs, 1, IsVideo, v);
  }

  /** Every regular file with an accepted name in a listing with no stat
      failure is in that directory's scan. */
  lemma {:induction false} ScanDirFindsEveryVideoFile(dir: string, es: seq<DirEntry>, next: nat, accept: NameTest, e: DirEntry)
    requires e in es && IsVideoFile(e, accept)
    requires forall x :: x in es ==> !StatAborts(x, accept)
    ensures exists v :: v in ScanDir(dir, es, next, accept) && v.filename == e.name && v.path == JoinPath(dir, e.name)
    decreases |es|
  {
    if es[0] == e {
      assert MakeVideo(dir, e, next) in ScanDir(dir, es, next, accept);
    } else {
      assert es[0] in es;
      var n := if IsVideoFile(es[0], accept) then next + 1 else next;
      ScanDirFindsEveryVideoFile(dir, es[1..], n, accept, e);
      var v :| v in ScanDir(dir, es[1..], n, accept) && v.filename == e.name && v.path == JoinPath(dir, e.name);
      assert v in ScanDir(dir, es, next, accept);
    }
  }

  /** Conversely, every regular file with an accepted name in a readable root
      whose listing has no stat failure is in the catalog, under its own name
      and joined path. */
  lemma ScanFindsEveryVideoFile(dirs: seq<string>, fs: FileSystem, next: nat, accept: NameTest, j: nat, e: DirEntry)
    requires j < |dirs| && Readable(fs, dirs[j])
    requires e in fs[dirs[j]].entries && IsVideoFile(e, accept)
    requires forall x :: x in fs[dirs[j]].entries ==> !StatAborts(x, accept)
    ensures exists v :: v in ScanDirs(dirs, fs, next, accept) && v.filename == e.name && v.path == JoinPath(dirs[j], e.name)
  {
    var n := CounterAt(dirs, next, Roots(fs, accept), j);
    ScanDirFindsEveryVideoFile(dirs[j], fs[dirs[j]].entries, n, accept, e);
    var v :| v in ScanDir(dirs[j], fs[dirs[j]].entries, n, accept) && v.filename == e.name && v.path == JoinPath(dirs[j], e.name);
    ChainIncludes(dirs, next, Roots(fs, accept), j, v);
  }

  /** Ids are positions, not identities: when the first of two video files
      of a root disappears, the next rescan gives its id to the other file. */
  lemma RescanReassignsIds(dir: string, a: DirEntry, b: DirEntry)
    requires IsVideoFile(a, IsVideo) && IsVideoFile(b, IsVideo) && a.name != b.name
    ensures var before := ScanDirs([dir], map[dir := Listing([a, b])], 1, IsVideo);
            var after := ScanDirs([dir], map[dir := Listing([b])], 1, IsVideo);
            && |before| == 2 && |after| == 1
            && before[0].Id() == after[0].Id() == VideoId(1)
            && before[0].filename == a.name && after[0].filename == b.name
            && before[0].path == JoinPath(dir, a.name) && after[0].path == JoinPath(dir, b.name)
  {
    var fsBefore := map[dir := Listing([a, b])];
    var fsAfter := map[dir := Listing([b])];
    assert [a, b][1..] == [b];
    assert ScanDir(dir, [b], 2, IsVideo) == [MakeVideo(dir, b, 2)] by {
      assert [b][1..] == [];
    }
    assert ScanDir(dir, [a, b], 1, IsVideo) == [MakeVideo(dir, a, 1), MakeVideo(dir, b, 2)];
    assert ScanDir(dir, [b], 1, IsVideo) == [MakeVideo(dir, b, 1)] by {
      assert [b][1..] == [];
    }
    assert ScanDirs([dir], fsBefore, 1, IsVideo) == RootVideos(fsBefore, dir, 1, IsVideo) by {
      assert [dir][1..] == [];
    }
    assert ScanDirs([dir], fsAfter, 1, IsVideo) == RootVideos(fsAfter, dir, 1, IsVideo) by {
      assert [dir][1..] == [];
    }
  }
}

=== FILE: options.dfy ===
/** The optional value used wherever the source yields `undefined`, `-1` or
    a missing entry. */
module Options {

  datatype Option<+T> = None | Some(value: T) {

    /** The wrapped value, or `default` when there is none (JavaScript's `x || default`
        for values that are never falsy). */
    function GetOr(default: T): T {
      match this
      case Some(v) => v
      case None => default
    }
  }
}

=== FILE: seqs.dfy ===
/** Sequence operations the source uses through JavaScript's Array API:
    `filter`, `findIndex`, and de-duplication through `new Set(...)`. */
module Seqs {
  import opened Options

  ghost predicate NoDuplicates<T>(s: seq<T>) {
    forall i, j :: 0 <= i < j < |s| ==> s[i] != s[j]
  }

  /** `Array.prototype.filter`: the elements satisfying `p`, in their original order. */
  function Filter<T(!new)>(s: seq<T>, p: T -> bool): (r: seq<T>)
    ensures |r| <= |s|
    ensures forall i :: 0 <= i < |r| ==> p(r[i])
    ensures forall x :: x in r <==> x in s && p(x)
  {
    if |s| == 0 then []
    else
      assert s == [s[0]] + s[1..];
      if p(s[0]) then [s[0]] + Filter(s[1..], p) else Filter(s[1..], p)
  }

  /** Filtering keeps every occurrence of a kept element and no other element. */
  lemma {:induction false} FilterMultiset<T(!new)>(s: seq<T>, p: T -> bool)
    ensures forall x :: multiset(Filter(s, p))[x] == if p(x) then multiset(s)[x] else 0
  {
    if |s| > 0 {
      FilterMultiset(s[1..], p);
      assert s == [s[0]] + s[1..];
    }
  }

  /** Filtering distributes over concatenation; together with the one-element
      case this pins down the order of the result, not just its contents. */
  lemma {:induction false} FilterConcat<T(!new)>(a: seq<T>, b: seq<T>, p: T -> bool)
    ensures Filter(a + b, p) == Filter(a, p) + Filter(b, p)
  {
    if |a| > 0 {
      assert (a + b)[1..] == a[1..] + b;
      FilterConcat(a[1..], b, p);
    } else {
      assert a + b == b;
    }
  }

  /** Filtering with a predicate every element satisfies changes nothing. */
  lemma {:induction false} FilterAll<T(!new)>(s: seq<T>, p: T -> bool)
    requires forall i :: 0 <= i < |s| ==> p(s[i])
    ensures Filter(s, p) == s
  {
    if |s| > 0 {
      FilterAll(s[1..], p);
    }
  }

  /** `Array.prototype.findIndex`, with `None` for the source's `-1`. */
  function FindIndex<T>(s: seq<T>, p: T -> bool): (r: Option<nat>)
    ensures r.None? <==> forall i :: 0 <= i < |s| ==> !p(s[i])
    ensures r.Some? ==> r.value < |s| && p(s[r.value])
    ensures r.Some? ==> forall i :: 0 <= i < r.value ==> !p(s[i])
  {
    if |s| == 0 then None
    else if p(s[0]) then Some(0)
    else match FindIndex(s[1..], p)
      case None => None
      case Some(k) => Some(k + 1)
  }

  /** `Array.from(new Set(s))`: each element once, at its first occurrence. */
  function Dedup<T(==,!new)>(s: seq<T>): (r: seq<T>)
    ensures NoDuplicates(r)
    ensures forall x :: x in r <==> x in s
    ensures |r| <= |s|
  {
    if |s| == 0 then []
    else
      var r := Dedup(s[..|s| - 1]);
      assert forall x :: x in s <==> x in s[..|s| - 1] || x == s[|s| - 1] by {
        assert s == s[..|s| - 1] + [s[|s| - 1]];
      }
      if s[|s| - 1] in r then r else r + [s[|s| - 1]]
  }

  /** De-duplicating a longer sequence only appends to the de-duplicated prefix:
      the first occurrences of `a` keep their places and their order. */
  lemma {:induction false} DedupExtends<T(!new)>(a: seq<T>, b: seq<T>)
    ensures |Dedup(a)| <= |Dedup(a + b)|
    ensures Dedup(a + b)[..|Dedup(a)|] == Dedup(a)
    decreases |b|
  {
    if |b| == 0 {
      assert a + b == a;
    } else {
      var ab := a + b;
      assert ab[..|ab| - 1] == a + b[..|b| - 1];
      DedupExtends(a, b[..|b| - 1]);
    }
  }

  /** The test "does not occur in `a`", as a value `Filter` can take. */
  function Outside<T(==)>(a: seq<T>): T -> bool {
    x => x !in a
  }

  /** De-duplicating a concatenation keeps the first occurrences of `a` and then
      those first occurrences of `b` that `a` has not already contributed, each
      part in its own order. */
  lemma {:induction false} DedupConcat<T(!new)>(a: seq<T>, b: seq<T>)
    ensures Dedup(a + b) == Dedup(a) + Filter(Dedup(b), Outside(a))
    decreases |b|
  {
    if |b| == 0 {
      assert a + b == a;
    } else {
      var b', y := b[..|b| - 1], b[|b| - 1];
      assert b == b' + [y];
      assert a + b == (a + b') + [y];
      DedupConcat(a, b');
      DedupSnoc(a + b', y);
      DedupSnoc(b', y);
      if y !in b' {
        DedupAppendNew(a, Dedup(b'), y);
      }
    }
  }

  /** De-duplicating one more element at the end adds it only when it is new. */
  lemma DedupSnoc<T(!new)>(s: seq<T>, y: T)
    ensures Dedup(s + [y]) == if y in s then Dedup(s) else Dedup(s) + [y]
  {
    var t := s + [y];
    assert t[..|t| - 1] == s;
  }

  /** One more element `y` at the end of `b` passes `Outside(a)` exactly when
      `y` is not in `a`. */
  lemma DedupAppendNew<T(!new)>(a: seq<T>, b: seq<T>, y: T)
    ensures Filter(b + [y], Outside(a)) == Filter(b, Outside(a)) + (if y in a then [] else [y])
  {
    FilterConcat(b, [y], Outside(a));
    assert [y][1..] == [];
  }

  /** A sequence that is already free of duplicates is left as it is. */
  lemma {:induction false} DedupDistinct<T(!new)>(s: seq<T>)
    requires NoDuplicates(s)
    ensures Dedup(s) == s
  {
    if |s| > 0 {
      DedupDistinct(s[..|s| - 1]);
    }
  }
}

=== FILE: stream.dfy ===
/** The response `/api/stream/:id` computes: the catalog lookup, the file
    size, and the single-range case of byte serving (section 14 of RFC 9110,
    formerly section 14.35 of RFC 2616). The handler's reads and pipes are
    described by the byte span the response names, not performed. */
module Stream {
  import opened Options
  import opened Text
  import opened Seqs
  import opened Library

  // ---------------------------------------------------------------- the Range header

  /** A single byte range `bytes=<first>-<last>`, where the last position may be omitted. */
  datatype ByteRange = ByteRange(first: nat, last: Option<nat>)

  /** The two fields of `"<first>-<last>".split("-")` that `parseInt` reads
      without producing NaN: a non-empty digit string, then digits or nothing. */
  predicate RangeFields(parts: seq<string>) {
    |parts| == 2 && |parts[0]| > 0 && AllDigits(parts[0]) && AllDigits(parts[1])
  }

  /** The Range values the handler reads as numbers. The first occurrence of
      `bytes=` is the prefix, so `replace(/bytes=/, "")` drops exactly it. */
  predicate WellFormedRange(h: string) {
    |h| >= 6 && h[..6] == "bytes=" && RangeFields(Split(h[6..], '-'))
  }

  /** The header as the handler sees it: absent, empty (falsy, so ignored),
      or a well-formed single range. */
  predicate RangeHeaderOk(range: Option<string>) {
    range.None? || range.value == "" || WellFormedRange(range.value)
  }

  /** The numbers the handler reads from a well-formed Range value. */
  function ParseRange(h: string): (r: ByteRange)
    requires WellFormedRange(h)
  {
    var parts := Split(h[6..], '-');
    ByteRange(DigitsValue(parts[0]), if parts[1] == "" then None else Some(DigitsValue(parts[1])))
  }

  /** The Range value a client sends for a byte range. */
  function RangeText(r: ByteRange): string {
    "bytes=" + NatToString(r.first) + "-" + (match r.last case None => "" case Some(l) => NatToString(l))
  }

  /** Every byte range a client can send is read back exactly. */
  lemma RangeRoundTrip(r: ByteRange)
    ensures WellFormedRange(RangeText(r))
    ensures ParseRange(RangeText(r)) == r
  {
    var a := NatToString(r.first);
    var b := match r.last case None => "" case Some(l) => NatToString(l);
    var h := RangeText(r);
    assert h[6..] == a + ['-'] + b;
    DigitsExclude(a, '-');
    DigitsExclude(b, '-');
    SplitAppend(a, '-', b);
    SplitNoSeparator(a, '-');
    DigitsValueOfNatToString(r.first);
    if r.last.Some? {
      DigitsValueOfNatToString(r.last.value);
    }
  }

  // ---------------------------------------------------------------- the response

  /** The response headers the handler sets. */
  datatype HeaderName = ContentRangeHeader | AcceptRanges | ContentLength | ContentType
  {
    /** The header's name on the wire. */
    function Text(): string {
      match this
      case ContentRangeHeader => "Content-Range"
      case AcceptRanges => "Accept-Ranges"
      case ContentLength => "Content-Length"
      case ContentType => "Content-Type"
    }
  }

  datatype Header = Header(name: HeaderName, value: string)

  /** What the response body is: a text message sent with `send`, Express's
      default error page for an exception the handler does not catch, the
      whole file, or the bytes `first..last` (both inclusive) of the file. */
  datatype Body = Message(text: string) | ErrorPage | WholeFile(path: string) | FileBytes(path: string, first: nat, last: nat)
  {
    predicate OpensFile() { WholeFile? || FileBytes? }
  }

  /** Status, the headers the handler sets (those Express adds itself are
      not listed), and the body. */
  datatype Response = Response(status: nat, headers: seq<Header>, body: Body)

  /** The value of the first header named `name`. */
  function HeaderValue(headers: seq<Header>, name: HeaderName): (r: Option<string>)
    ensures r.None? <==> forall i :: 0 <= i < |headers| ==> headers[i].name != name
  {
    if |headers| == 0 then None
    else if headers[0].name == name then Some(headers[0].value)
    else HeaderValue(headers[1..], name)
  }

  /** The Content-Range value for the bytes `first..last` of a file of `size` bytes. */
  function ContentRange(first: nat, last: nat, size: nat): string {
    "bytes " + NatToString(first) + "-" + NatToString(last) + "/" + NatToString(size)
  }

  /** The headers of a 206 response. */
  function PartialHeaders(contentRange: string, contentLength: string): seq<Header> {
    [ Header(ContentRangeHeader, contentRange), Header(AcceptRanges, "bytes"),
      Header(ContentLength, contentLength), Header(ContentType, "video/mp4") ]
  }

  /** The headers of a 206 response, looked up by name. */
  lemma PartialHeaderValues(contentRange: string, contentLength: string)
    ensures var hs := PartialHeaders(contentRange, contentLength);
      && HeaderValue(hs, ContentRangeHeader) == Some(contentRange)
      && HeaderValue(hs, AcceptRanges) == Some("bytes")
      && HeaderValue(hs, ContentLength) == Some(contentLength)
      && HeaderValue(hs, ContentType) == Some("video/mp4")
  {
    var hs := PartialHeaders(contentRange, contentLength);
    assert hs[1..][1..] == hs[2..];
    assert hs[2..][1..] == hs[3..];
    assert HeaderValue(hs, ContentLength) == HeaderValue(hs[1..], ContentLength)
        == HeaderValue(hs[2..], ContentLength);
    assert HeaderValue(hs, ContentType) == HeaderValue(hs[1..], ContentType)
        == HeaderValue(hs[2..], ContentType) == HeaderValue(hs[3..], ContentType);
  }

  /** Node's `Number.MAX_SAFE_INTEGER`, 2^53 - 1. */
  const MaxSafeInteger: nat := 0x1F_FFFF_FFFF_FFFF

  /** The positions `fs.createReadStream` refuses: Node checks that `start`
      and `end` are safe integers with `start <= end` and throws otherwise.
      `parseInt` reads every digit string up to 2^53 - 1 exactly and every
      larger one as a Number above that bound, so the test on the exact
      values decides the same way. */
  predicate ReadStreamRejects(first: nat, last: nat) {
    first > MaxSafeInteger || last > MaxSafeInteger || first > last
  }

  /** `/api/stream/:id`. `sizes` gives the size `statSync` reports for each
      path it can stat; a path missing from it makes `statSync` throw. */
  function StreamVideo(catalog: seq<Video>, id: string, sizes: map<string, nat>, range: Option<string>): (r: Response)
    requires RangeHeaderOk(range)
    ensures r.status in {200, 206, 404, 416, 500}
    ensures r.body.OpensFile() <==> r.status in {200, 206}
    ensures r.status == 404 <==> forall i :: 0 <= i < |catalog| ==> catalog[i].Id() != id
    ensures r.body.FileBytes? ==> r.body.first <= r.body.last <= MaxSafeInteger
  {
    match FindIndex(catalog, HasId(id))
    case None => Response(404, [], Message("Video not found"))
    case Some(i) =>
      var path := catalog[i].path;
      if path !in sizes then Response(500, [], ErrorPage)
      else
        var size := sizes[path];
        if range.Some? && range.value != "" then
          var br := ParseRange(range.value);
          var first := br.first;
          if first >= size then
            Response(416, [], Message("Requested range not satisfiable\n" + NatToString(first) + " >= " + NatToString(size)))
          else
            var last := br.last.GetOr(size - 1);
            if ReadStreamRejects(first, last) then Response(500, [], ErrorPage)
            else
              Response(206, PartialHeaders(ContentRange(first, last, size), NatToString(last - first + 1)),
                       FileBytes(path, first, last))
        else
          Response(200,
            [ Header(ContentLength, NatToString(size)),
              Header(ContentType, "video/mp4") ],
            WholeFile(path))
  }

  // ---------------------------------------------------------------- by case

  /** The status is 404 exactly when no catalog entry has the id, and then
      nothing is read. */
  lemma StreamNotFound(catalog: seq<Video>, id: string, sizes: map<string, nat>, range: Option<string>)
    requires RangeHeaderOk(range)
    ensures StreamVideo(catalog, id, sizes, range).status == 404 <==> forall v :: v in catalog ==> v.Id() != id
    ensures (forall v :: v in catalog ==> v.Id() != id) ==>
              StreamVideo(catalog, id, sizes, range) == Response(404, [], Message("Video not found"))
  {
    var f := FindIndex(catalog, HasId(id));
    if f.Some? {
      assert HasId(id)(catalog[f.value]);
    } else {
      forall v | v in catalog ensures v.Id() != id {
        var k :| 0 <= k < |catalog| && catalog[k] == v;
        assert !HasId(id)(catalog[k]);
      }
    }
  }

  /** A video whose file can no longer be stat'ed gives Express's 500. */
  lemma StreamStatFails(catalog: seq<Video>, id: string, sizes: map<string, nat>, range: Option<string>, i: nat)
    requires RangeHeaderOk(range)
    requires FirstWithId(catalog, id, i) && catalog[i].path !in sizes
    ensures StreamVideo(catalog, id, sizes, range) == Response(500, [], ErrorPage)
  {
    FindFirst(catalog, id, i);
  }

  /** Without a (non-empty) Range header the whole file is sent with status
      200, and the Content-Length header reads back as the file size. */
  lemma StreamWhole(catalog: seq<Video>, id: string, sizes: map<string, nat>, range: Option<string>, i: nat)
    requires range.None? || range.value == ""
    requires FirstWithId(catalog, id, i) && catalog[i].path in sizes
    ensures var r := StreamVideo(catalog, id, sizes, range);
      && r.status == 200
      && r.body == WholeFile(catalog[i].path)
      && HeaderValue(r.headers, ContentType) == Some("video/mp4")
      && HeaderValue(r.headers, ContentRangeHeader).None?
      && var len := HeaderValue(r.headers, ContentLength);
         len.Some? && AllDigits(len.value) && DigitsValue(len.value) == sizes[catalog[i].path]
  {
    FindFirst(catalog, id, i);
    DigitsValueOfNatToString(sizes[catalog[i].path]);
  }

  /** With a well-formed range the status is 416 exactly when the first
      position is at or past the end of the file; then no file is opened.
      Otherwise the read stream is opened: 500 when Node refuses its
      positions, 206 when it accepts them. */
  lemma StreamUnsatisfiable(catalog: seq<Video>, id: string, sizes: map<string, nat>, h: string, i: nat)
    requires WellFormedRange(h)
    requires FirstWithId(catalog, id, i) && catalog[i].path in sizes
    ensures var r := StreamVideo(catalog, id, sizes, Some(h));
      && (r.status == 416 <==> ParseRange(h).first >= sizes[catalog[i].path])
      && (r.status == 416 ==> !r.body.OpensFile() && r.headers == [])
      && (r.status != 416 ==>
            var last := ParseRange(h).last.GetOr(sizes[catalog[i].path] - 1);
            r.status == if ReadStreamRejects(ParseRange(h).first, last) then 500 else 206)
  {
    FindFirst(catalog, id, i);
  }

  /** A satisfiable range gives 206 with the span `first..last`, where an
      omitted last position means the last byte of the file; the headers
      name that span and the file size, and announce `last - first + 1` bytes.
      A span Node's read stream refuses gives Express's 500 instead. */
  lemma StreamPartial(catalog: seq<Video>, id: string, sizes: map<string, nat>, h: string, i: nat)
    requires WellFormedRange(h)
    requires FirstWithId(catalog, id, i) && catalog[i].path in sizes
    requires ParseRange(h).first < sizes[catalog[i].path]
    ensures var size := sizes[catalog[i].path];
      var first := ParseRange(h).first;
      var last := ParseRange(h).last.GetOr(size - 1);
      StreamVideo(catalog, id, sizes, Some(h))
        == if ReadStreamRejects(first, last) then Response(500, [], ErrorPage)
           else Response(206, PartialHeaders(ContentRange(first, last, size), NatToString(last - first + 1)),
                         FileBytes(catalog[i].path, first, last))
  {
    FindFirst(catalog, id, i);
  }

  /** Whenever bytes are sent, Content-Length reads back as the number of
      bytes in the span. */
  lemma StreamPartialLength(catalog: seq<Video>, id: string, sizes: map<string, nat>, h: string, i: nat)
    requires WellFormedRange(h)
    requires FirstWithId(catalog, id, i) && catalog[i].path in sizes
    requires ParseRange(h).first < sizes[catalog[i].path]
    ensures var r := StreamVideo(catalog, id, sizes, Some(h));
      r.body.FileBytes? ==>
        var len := HeaderValue(r.headers, ContentLength);
        len.Some? && AllDigits(len.value) && DigitsValue(len.value) == r.body.last - r.body.first + 1
  {
    var size := sizes[catalog[i].path];
    var first := ParseRange(h).first;
    var last := ParseRange(h).last.GetOr(size - 1);
    StreamPartial(catalog, id, sizes, h, i);
    var r := StreamVideo(catalog, id, sizes, Some(h));
    if ReadStreamRejects(first, last) {
      assert r.body == ErrorPage;
    } else {
      var hs := PartialHeaders(ContentRange(first, last, size), NatToString(last - first + 1));
      assert r == Response(206, hs, FileBytes(catalog[i].path, first, last));
      SpanLength(ContentRange(first, last, size), first, last);
    }
  }

  /** The Content-Length of a 206 for the span `first..last` reads back as its length. */
  lemma SpanLength(contentRange: string, first: nat, last: nat)
    requires first <= last
    ensures var len := HeaderValue(PartialHeaders(contentRange, NatToString(last - first + 1)), ContentLength);
      len.Some? && AllDigits(len.value) && DigitsValue(len.value) == last - first + 1
  {
    PartialHeaderValues(contentRange, NatToString(last - first + 1));
    DigitsValueOfNatToString(last - first + 1);
  }

  /** An end position past 2^53 - 1 makes `createReadStream` throw before
      any header is written: Express answers 500. */
  lemma StreamHugeEnd(v: Video)
    ensures WellFormedRange(RangeText(ByteRange(0, Some(MaxSafeInteger + 1))))
    ensures StreamVideo([v], v.Id(), map[v.path := 10], Some(RangeText(ByteRange(0, Some(MaxSafeInteger + 1)))))
         == Response(500, [], ErrorPage)
  {
    var h := RangeText(ByteRange(0, Some(MaxSafeInteger + 1)));
    RangeRoundTrip(ByteRange(0, Some(MaxSafeInteger + 1)));
    StreamPartial([v], v.Id(), map[v.path := 10], h, 0);
  }

  /** A range that ends before it starts makes `createReadStream` throw:
      Express answers 500. */
  lemma StreamBackwardRange(v: Video)
    ensures WellFormedRange(RangeText(ByteRange(5, Some(2))))
    ensures StreamVideo([v], v.Id(), map[v.path := 10], Some(RangeText(ByteRange(5, Some(2)))))
         == Response(500, [], ErrorPage)
  {
    var h := RangeText(ByteRange(5, Some(2)));
    RangeRoundTrip(ByteRange(5, Some(2)));
    StreamPartial([v], v.Id(), map[v.path := 10], h, 0);
  }

  /** The last position is not clamped to the file: asking for bytes 0-99 of a
      10-byte file announces 100 bytes. */
  lemma StreamDoesNotClampEnd(v: Video)
    ensures WellFormedRange("bytes=0-99")
    ensures var r := StreamVideo([v], v.Id(), map[v.path := 10], Some("bytes=0-99"));
      && r.status == 206
      && r.body == FileBytes(v.path, 0, 99)
      && HeaderValue(r.headers, ContentLength) == Some("100")
  {
    ExampleRangeText();
    RangeRoundTrip(ByteRange(0, Some(99)));
    StreamPartial([v], v.Id(), map[v.path := 10], "bytes=0-99", 0);
    ExampleLength();
    PartialHeaderValues(ContentRange(0, 99, 10), "100");
  }

  lemma ExampleRangeText()
    ensures RangeText(ByteRange(0, Some(99))) == "bytes=0-99"
  {
    assert NatToString(0) == "0";
    assert NatToString(9) == "9";
    assert NatToString(99) == "99";
  }

  lemma ExampleLength()
    ensures NatToString(99 - 0 + 1) == "100"
  {
    assert NatToString(1) == "1";
    assert NatToString(10) == "10";
  }
}

=== FILE: text.dfy ===
/** The string operations the source relies on: decimal rendering and
    `parseInt` of digit strings, `padStart(2, '0')`, `toLowerCase`,
    `toUpperCase`, `trim`, `includes` and `split`. */
module Text {

  // ---------------------------------------------------------------- digits

  predicate IsDigit(c: char) {
    '0' <= c <= '9'
  }

  predicate AllDigits(s: string) {
    forall i :: 0 <= i < |s| ==> IsDigit(s[i])
  }

  function DigitChar(d: nat): (c: char)
    requires d < 10
    ensures IsDigit(c)
  {
    ('0' as int + d) as char
  }

  function DigitValue(c: char): (d: nat)
    requires IsDigit(c)
    ensures d < 10
  {
    c as int - '0' as int
  }

  /** Decimal rendering of a natural number, as `toString()` and template
      literals give it for an integral Number. */
  function NatToString(n: nat): (r: string)
    ensures 1 <= |r|
    ensures AllDigits(r)
    ensures 1 < |r| ==> r[0] != '0'
    ensures n < 10 <==> |r| == 1
  {
    if n < 10 then [DigitChar(n)] else NatToString(n / 10) + [DigitChar(n % 10)]
  }

  /** The value `parseInt(s, 10)` gives to a string of decimal digits. */
  function DigitsValue(s: string): nat
    requires AllDigits(s)
  {
    if |s| == 0 then 0 else 10 * DigitsValue(s[..|s| - 1]) + DigitValue(s[|s| - 1])
  }

  /** Reading back a rendered number gives the number. */
  lemma {:induction false} DigitsValueOfNatToString(n: nat)
    ensures DigitsValue(NatToString(n)) == n
  {
    if n >= 10 {
      var s := NatToString(n);
      assert s[..|s| - 1] == NatToString(n / 10);
      DigitsValueOfNatToString(n / 10);
    }
  }

  /** Distinct numbers render as distinct strings. */
  lemma NatToStringInjective(a: nat, b: nat)
    ensures NatToString(a) == NatToString(b) <==> a == b
  {
    if NatToString(a) == NatToString(b) {
      DigitsValueOfNatToString(a);
      DigitsValueOfNatToString(b);
    }
  }

  /** A leading zero does not change the value `parseInt` reads. */
  lemma {:induction false} DigitsValueLeadingZero(s: string)
    requires AllDigits(s)
    ensures AllDigits("0" + s) && DigitsValue("0" + s) == DigitsValue(s)
    decreases |s|
  {
    if |s| > 0 {
      var z := "0" + s;
      assert z[..|z| - 1] == "0" + s[..|s| - 1];
      DigitsValueLeadingZero(s[..|s| - 1]);
    }
  }

  /** A string of digits contains no other character, in particular no separator. */
  lemma DigitsExclude(s: string, c: char)
    requires AllDigits(s) && !IsDigit(c)
    ensures c !in s
  {
  }

  /** `s.padStart(2, '0')`. */
  function PadStart2(s: string): (r: string)
    ensures |r| == if |s| < 2 then 2 else |s|
    decreases 2 - |s|
  {
    if |s| >= 2 then s else PadStart2("0" + s)
  }

  /** `n.toString().padStart(2, '0')` for a number below 100 reads back as `n`. */
  lemma TwoDigitsValue(n: nat)
    requires n < 100
    ensures |PadStart2(NatToString(n))| == 2
    ensures AllDigits(PadStart2(NatToString(n)))
    ensures DigitsValue(PadStart2(NatToString(n))) == n
  {
    DigitsValueOfNatToString(n);
    if n < 10 {
      DigitsValueLeadingZero(NatToString(n));
      assert PadStart2(NatToString(n)) == "0" + NatToString(n);
    } else {
      assert NatToString(n / 10) == [DigitChar(n / 10)];
    }
  }

  // ---------------------------------------------------------------- case

  /** `toLowerCase` on one character, for the ASCII letters. */
  function LowerChar(c: char): char {
    if 'A' <= c <= 'Z' then (c as int + 32) as char else c
  }

  /** `toUpperCase` on one character, for the ASCII letters. */
  function UpperChar(c: char): char {
    if 'a' <= c <= 'z' then (c as int - 32) as char else c
  }

  function ToLower(s: string): (r: string)
    ensures |r| == |s|
  {
    if |s| == 0 then [] else ToLower(s[..|s| - 1]) + [LowerChar(s[|s| - 1])]
  }

  function ToUpper(s: string): (r: string)
    ensures |r| == |s|
  {
    if |s| == 0 then [] else ToUpper(s[..|s| - 1]) + [UpperChar(s[|s| - 1])]
  }

  /** Lower-casing works character by character. */
  lemma {:induction false} ToLowerChars(s: string)
    ensures forall i :: 0 <= i < |s| ==> ToLower(s)[i] == LowerChar(s[i])
  {
    if |s| > 0 {
      var init := s[..|s| - 1];
      ToLowerChars(init);
      forall i | 0 <= i < |s| ensures ToLower(s)[i] == LowerChar(s[i]) {
        if i < |s| - 1 {
          assert ToLower(s)[i] == ToLower(init)[i];
          assert init[i] == s[i];
        }
      }
    }
  }

  /** Lower-casing gives `t` when it does so character by character. */
  lemma LowerCaseOf(s: string, t: string)
    requires |s| == |t| && forall i :: 0 <= i < |s| ==> LowerChar(s[i]) == t[i]
    ensures ToLower(s) == t
  {
    ToLowerChars(s);
  }

  // ---------------------------------------------------------------- trim

  /** The characters `String.prototype.trim` removes: ECMAScript WhiteSpace
      and LineTerminator. */
  predicate IsJsSpace(c: char) {
    || c == ' ' || c == '\t' || c == '\n' || c == '\r'
    || c == '\U{000B}' || c == '\U{000C}' || c == '\U{00A0}' || c == '\U{1680}'
    || ('\U{2000}' <= c <= '\U{200A}')
    || c == '\U{2028}' || c == '\U{2029}' || c == '\U{202F}' || c == '\U{205F}'
    || c == '\U{3000}' || c == '\U{FEFF}'
  }

  function TrimStart(s: string): (r: string)
    ensures |r| <= |s| && r == s[|s| - |r|..]
    ensures forall i :: 0 <= i < |s| - |r| ==> IsJsSpace(s[i])
    ensures |r| > 0 ==> !IsJsSpace(r[0])
  {
    if |s| > 0 && IsJsSpace(s[0]) then TrimStart(s[1..]) else s
  }

  function TrimEnd(s: string): (r: string)
    ensures |r| <= |s| && r == s[..|r|]
    ensures forall i :: |r| <= i < |s| ==> IsJsSpace(s[i])
    ensures |r| > 0 ==> !IsJsSpace(r[|r| - 1])
  {
    if |s| > 0 && IsJsSpace(s[|s| - 1]) then TrimEnd(s[..|s| - 1]) else s
  }

  /** `String.prototype.trim`. */
  function Trim(s: string): (r: string) {
    TrimEnd(TrimStart(s))
  }

  // ---------------------------------------------------------------- search

  /** `q` occurs in `s` starting at index `i`. */
  predicate OccursAt(s: string, q: string, i: nat) {
    i + |q| <= |s| && s[i..i + |q|] == q
  }

  /** `s.includes(q)`. */
  predicate Contains(s: string, q: string)
    decreases |s|
  {
    if |q| > |s| then false
    else s[..|q|] == q || Contains(s[1..], q)
  }

  /** `includes` holds exactly when the query occurs at some position; in
      particular the empty query occurs in every string. */
  lemma {:induction false} ContainsIff(s: string, q: string)
    ensures Contains(s, q) <==> exists i: nat :: OccursAt(s, q, i)
    decreases |s|
  {
    if |q| > |s| {
      forall i: nat ensures !OccursAt(s, q, i) { }
    } else if s[..|q|] == q {
      assert OccursAt(s, q, 0);
    } else {
      ContainsIff(s[1..], q);
      if Contains(s[1..], q) {
        var i: nat :| OccursAt(s[1..], q, i);
        assert s[1..][i..i + |q|] == s[i + 1..i + 1 + |q|];
        assert OccursAt(s, q, i + 1);
      } else {
        forall i: nat | OccursAt(s, q, i) ensures false {
          if i > 0 {
            assert s[1..][i - 1..i - 1 + |q|] == s[i..i + |q|];
            assert OccursAt(s[1..], q, i - 1);
          }
        }
      }
    }
  }

  // ---------------------------------------------------------------- split

  /** `s.split(sep)` for a one-character separator. */
  function Split(s: string, sep: char): (r: seq<string>)
    ensures |r| >= 1
  {
    if |s| == 0 then [""]
    else if s[|s| - 1] == sep then Split(s[..|s| - 1], sep) + [""]
    else
      var r := Split(s[..|s| - 1], sep);
      r[..|r| - 1] + [r[|r| - 1] + [s[|s| - 1]]]
  }

  /** A string without the separator is a single field. */
  lemma {:induction false} SplitNoSeparator(s: string, sep: char)
    requires sep !in s
    ensures Split(s, sep) == [s]
  {
    if |s| > 0 {
      assert sep !in s[..|s| - 1] by {
        assert forall i :: 0 <= i < |s| - 1 ==> s[..|s| - 1][i] == s[i];
      }
      SplitNoSeparator(s[..|s| - 1], sep);
      assert s[..|s| - 1] + [s[|s| - 1]] == s;
    }
  }

  /** Splitting at a separator followed by a separator-free field appends that field. */
  lemma {:induction false} SplitAppend(a: string, sep: char, b: string)
    requires sep !in b
    ensures Split(a + [sep] + b, sep) == Split(a, sep) + [b]
    decreases |b|
  {
    var s := a + [sep] + b;
    if |b| == 0 {
      assert s[..|s| - 1] == a;
    } else {
      var b' := b[..|b| - 1];
      assert s[..|s| - 1] == a + [sep] + b';
      assert sep !in b' by {
        assert forall i :: 0 <= i < |b'| ==> b'[i] == b[i];
      }
      SplitAppend(a, sep, b');
      assert b' + [b[|b| - 1]] == b;
    }
  }
}

=== FILE: userstate.dfy ===
/** The server's user state: the JSON database record, the handlers that
    change it (adding a scan folder, recording a playback position, deleting
    a video), and the `/api/videos` listing that joins it with the catalog.
    Each handler is a transition from the record and the catalog to a new
    record, a new catalog and a reply. */
module UserState {
  import opened Options
  import opened Seqs
  import opened Library

  /** The database: extra folders to scan, the last playback position per
      video id, the liked video ids, and named playlists of video ids. */
  datatype Db = Db(customFolders: seq<string>, history: map<string, real>,
                   likedVideos: seq<string>, playlists: map<string, seq<string>>)

  /** The record `initDb` writes when no database file exists. */
  const InitialDb := Db([], map[], [], map[])

  /** The JSON or text a handler sends. */
  datatype ReplyBody = Success | Error(error: string) | Message(message: string) | Text(text: string)

  datatype Reply = Reply(status: nat, body: ReplyBody)

  /** The record after a handler, and its reply. */
  datatype Outcome = Outcome(db: Db, reply: Reply)

  // ---------------------------------------------------------------- POST /api/folders

  /** `POST /api/folders`. `folder` is the request's `folder` field (absent
      or a string); `onDisk` is the set of paths `existsSync` accepts.
      A folder is added exactly when it is a non-empty string, not yet in
      the list and present on disk; it is then appended. Otherwise the reply
      is 400 and the database is unchanged. */
  function AddFolder(db: Db, folder: Option<string>, onDisk: set<string>): (o: Outcome)
    ensures o.reply.status == 200 <==>
              folder.Some? && folder.value != "" && folder.value !in db.customFolders && folder.value in onDisk
    ensures o.reply.status == 200 ==> o.db == db.(customFolders := db.customFolders + [folder.value])
    ensures o.reply.status != 200 ==> o.reply.status == 400 && o.db == db
  {
    if folder.Some? && folder.value != "" && folder.value !in db.customFolders then
      if folder.value in onDisk then
        Outcome(db.(customFolders := db.customFolders + [folder.value]), Reply(200, Success))
      else
        Outcome(db, Reply(400, Error("Folder does not exist.")))
    else
      Outcome(db, Reply(400, Error("Invalid or existing folder.")))
  }

  /** The folder list stays free of duplicates and of empty strings. */
  ghost predicate FoldersWellKept(db: Db) {
    NoDuplicates(db.customFolders) && forall i :: 0 <= i < |db.customFolders| ==> db.customFolders[i] != ""
  }

  /** The fresh record starts with no folders, so it is well kept; every
      record reached from it by adding folders stays so. */
  lemma InitialFoldersWellKept()
    ensures FoldersWellKept(InitialDb)
    ensures forall f, onDisk :: FoldersWellKept(AddFolder(InitialDb, f, onDisk).db)
  {
    forall f, onDisk ensures FoldersWellKept(AddFolder(InitialDb, f, onDisk).db) {
      AddFolderKeepsFolders(InitialDb, f, onDisk);
    }
  }

  lemma {:induction false} AddFolderKeepsFolders(db: Db, folder: Option<string>, onDisk: set<string>)
    requires FoldersWellKept(db)
    ensures FoldersWellKept(AddFolder(db, folder, onDisk).db)
  {
    var o := AddFolder(db, folder, onDisk);
    if o.reply.status == 200 {
      var fs := db.customFolders + [folder.value];
      assert o.db.customFolders == fs;
      forall i, j | 0 <= i < j < |fs| ensures fs[i] != fs[j] {
        if j == |fs| - 1 {
          assert fs[i] == db.customFolders[i];
        }
      }
    }
  }

  /** After a folder is added, the next scan visits it once: the roots have
      no duplicates and include the folder. */
  lemma AddedFolderIsScanned(home: string, cwd: string, db: Db, folder: Option<string>, onDisk: set<string>)
    requires AddFolder(db, folder, onDisk).reply.status == 200
    ensures var dirs := DirsToScan(home, cwd, AddFolder(db, folder, onDisk).db.customFolders);
      NoDuplicates(dirs) && folder.value in dirs
  {
    var customs := AddFolder(db, folder, onDisk).db.customFolders;
    assert folder.value == customs[|customs| - 1];
  }

  /** Every video file of an added, readable folder whose listing has no
      stat failure is in the catalog of the next scan. */
  lemma AddedFolderVideosListed(home: string, cwd: string, db: Db, folder: Option<string>, onDisk: set<string>,
                                fs: FileSystem, e: DirEntry)
    requires AddFolder(db, folder, onDisk).reply.status == 200
    requires Readable(fs, folder.value) && e in fs[folder.value].entries && IsVideoFile(e, IsVideo)
    requires forall x :: x in fs[folder.value].entries ==> !StatAborts(x, IsVideo)
    ensures exists v :: v in Scan(home, cwd, AddFolder(db, folder, onDisk).db.customFolders, fs)
                     && v.filename == e.name && v.path == JoinPath(folder.value, e.name)
  {
    var dirs := DirsToScan(home, cwd, AddFolder(db, folder, onDisk).db.customFolders);
    AddedFolderIsScanned(home, cwd, db, folder, onDisk);
    var j :| 0 <= j < |dirs| && dirs[j] == folder.value;
    ScanFindsEveryVideoFile(dirs, fs, 1, IsVideo, j, e);
  }

  /** The same files appear in the next `GET /api/videos` reply. */
  lemma AddedFolderVideosReturned(home: string, cwd: string, db: Db, folder: Option<string>, onDisk: set<string>,
                                  fs: FileSystem, e: DirEntry)
    requires AddFolder(db, folder, onDisk).reply.status == 200
    requires Readable(fs, folder.value) && e in fs[folder.value].entries && IsVideoFile(e, IsVideo)
    requires forall x :: x in fs[folder.value].entries ==> !StatAborts(x, IsVideo)
    ensures exists l :: l in ListVideos(home, cwd, AddFolder(db, folder, onDisk).db, fs)
                     && l.video.filename == e.name && l.video.path == JoinPath(folder.value, e.name)
  {
    var added := AddFolder(db, folder, onDisk).db;
    var catalog := Scan(home, cwd, added.customFolders, fs);
    AddedFolderVideosListed(home, cwd, db, folder, onDisk, fs, e);
    var v :| v in catalog && v.filename == e.name && v.path == JoinPath(folder.value, e.name);
    var i :| 0 <= i < |catalog| && catalog[i] == v;
    assert ListVideos(home, cwd, added, fs)[i].video == v;
  }

  // ---------------------------------------------------------------- POST /api/history

  /** The key a plain object does not store by assignment: writing
      `obj["__proto__"] = n` calls the prototype setter, which ignores a
      number, unless the object already has an own property of that name
      (as `JSON.parse` of the database file can create). */
  const ProtoKey: string := "__proto__"

  /** Whether `history[key] = n` creates or updates an own property. */
  predicate Stores(db: Db, key: string) {
    key != ProtoKey || key in db.history
  }

  /** `POST /api/history`: records the playback position of one video;
      the listing then shows that position for that id and nothing else
      changes. A `__proto__` id that is not already a key records nothing. */
  function SetHistory(db: Db, videoId: string, timestamp: real): (o: Outcome)
    ensures o.reply == Reply(200, Success)
    ensures Stores(db, videoId) ==> videoId in o.db.history && o.db.history[videoId] == timestamp
    ensures !Stores(db, videoId) ==> o.db == db
    ensures forall k :: k != videoId ==> (k in o.db.history <==> k in db.history)
    ensures forall k :: k != videoId && k in db.history ==> o.db.history[k] == db.history[k]
    ensures forall id :: ResumeTime(o.db, id) ==
              if id == videoId && Stores(db, videoId) then timestamp else ResumeTime(db, id)
    ensures o.db.customFolders == db.customFolders && o.db.likedVideos == db.likedVideos
    ensures o.db.playlists == db.playlists
  {
    if Stores(db, videoId) then Outcome(db.(history := db.history[videoId := timestamp]), Reply(200, Success))
    else Outcome(db, Reply(200, Success))
  }

  /** A `__proto__` id is acknowledged but not recorded in a fresh history,
      while every catalog id is recorded. */
  lemma SetHistoryProtoIgnored(videoId: string, timestamp: real)
    ensures SetHistory(InitialDb, ProtoKey, timestamp).db == InitialDb
    ensures SetHistory(InitialDb, ProtoKey, timestamp).reply == Reply(200, Success)
    ensures videoId != ProtoKey ==> SetHistory(InitialDb, videoId, timestamp).db.history == map[videoId := timestamp]
  {
  }

  // ---------------------------------------------------------------- GET /api/videos

  /** One element of the `/api/videos` reply: the catalog entry with the
      playback position and the like flag attached. */
  datatype Listed = Listed(video: Video, resumeTime: real, isLiked: bool)

  /** `db.history[id] || 0`: a recorded position of zero and no record at
      all both read as zero. */
  function ResumeTime(db: Db, id: string): real {
    if id in db.history then db.history[id] else 0.0
  }

  function ListVideo(db: Db, v: Video): Listed {
    Listed(v, ResumeTime(db, v.Id()), v.Id() in db.likedVideos)
  }

  /** The `map` over the catalog that builds the reply. It keeps the
      catalog's entries and order; an entry is marked liked exactly when its
      id is in the liked list, and shows the position recorded for its id,
      or zero when none was recorded. */
  function Join(catalog: seq<Video>, db: Db): (r: seq<Listed>)
    ensures |r| == |catalog|
    ensures forall i :: 0 <= i < |r| ==> r[i].video == catalog[i]
    ensures forall i :: 0 <= i < |r| ==> (r[i].isLiked <==> catalog[i].Id() in db.likedVideos)
    ensures forall i :: 0 <= i < |r| ==>
              r[i].resumeTime == if catalog[i].Id() in db.history then db.history[catalog[i].Id()] else 0.0
    ensures forall i :: 0 <= i < |r| ==>
              (r[i].resumeTime != 0.0 <==> catalog[i].Id() in db.history && db.history[catalog[i].Id()] != 0.0)
  {
    seq(|catalog|, i requires 0 <= i < |catalog| => ListVideo(db, catalog[i]))
  }

  /** `GET /api/videos`: rescan with the current folders, then join. */
  function ListVideos(home: string, cwd: string, db: Db, fs: FileSystem): seq<Listed> {
    Join(Scan(home, cwd, db.customFolders, fs), db)
  }

  // ---------------------------------------------------------------- DELETE /api/video/:id

  /** Which step of the deletion throws, if any: unlinking the video file
      or its thumbnail, or writing the database. */
  datatype DeleteIo = Completes | UnlinkFails | SaveFails

  datatype DeleteOutcome = DeleteOutcome(db: Db, catalog: seq<Video>, reply: Reply)

  function IsNot(id: string): string -> bool {
    (x: string) => x != id
  }

  /** The database clean-up: the id leaves the history, the liked list and
      every playlist. */
  function Forget(db: Db, id: string): (d: Db)
    ensures id !in d.history && id !in d.likedVideos
    ensures d.playlists.Keys == db.playlists.Keys
    ensures forall pl :: pl in d.playlists ==> id !in d.playlists[pl]
  {
    db.(history := db.history - {id},
        likedVideos := Filter(db.likedVideos, IsNot(id)),
        playlists := map pl | pl in db.playlists :: Filter(db.playlists[pl], IsNot(id)))
  }

  /** `DELETE /api/video/:id`. */
  function DeleteVideo(db: Db, catalog: seq<Video>, id: string, io: DeleteIo): (o: DeleteOutcome)
    ensures o.reply.status in {200, 404, 500}
  {
    match FindIndex(catalog, HasId(id))
    case None => DeleteOutcome(db, catalog, Reply(404, Text("Video not found")))
    case Some(i) =>
      var vid := catalog[i].Id();
      match io
      case UnlinkFails => DeleteOutcome(db, catalog, Reply(500, Error("Failed to delete video")))
      case SaveFails => DeleteOutcome(Forget(db, vid), catalog, Reply(500, Error("Failed to delete video")))
      case Completes =>
        DeleteOutcome(Forget(db, vid), catalog[..i] + catalog[i + 1..], Reply(200, Message("Video deleted successfully")))
  }

  /** Deleting an id no catalog entry has is a 404 that changes nothing;
      every other request finds the video. */
  lemma DeleteUnknown(db: Db, catalog: seq<Video>, id: string, io: DeleteIo)
    ensures var o := DeleteVideo(db, catalog, id, io);
      && (o.reply.status == 404 <==> forall v :: v in catalog ==> v.Id() != id)
      && (o.reply.status == 404 ==> o.db == db && o.catalog == catalog && o.reply.body == Text("Video not found"))
  {
    var f := FindIndex(catalog, HasId(id));
    if f.Some? {
      assert HasId(id)(catalog[f.value]);
    } else {
      forall v | v in catalog ensures v.Id() != id {
        var k :| 0 <= k < |catalog| && catalog[k] == v;
        assert !HasId(id)(catalog[k]);
      }
    }
  }

  /** The clean-up leaves everything else alone: the folders, the other
      history records, and the number of occurrences of every other id in the
      liked list and in each playlist; `ForgetKeepsOrder` gives their order. */
  lemma ForgetKeepsOthers(db: Db, id: string, other: string)
    requires other != id
    ensures var d := Forget(db, id);
      && d.customFolders == db.customFolders
      && (other in d.history <==> other in db.history)
      && (other in d.history ==> d.history[other] == db.history[other])
      && multiset(d.likedVideos)[other] == multiset(db.likedVideos)[other]
      && forall pl :: pl in d.playlists ==> multiset(d.playlists[pl])[other] == multiset(db.playlists[pl])[other]
  {
    FilterMultiset(db.likedVideos, IsNot(id));
    forall pl | pl in db.playlists
      ensures multiset(Filter(db.playlists[pl], IsNot(id)))[other] == multiset(db.playlists[pl])[other]
    {
      FilterMultiset(db.playlists[pl], IsNot(id));
    }
  }

  /** The clean-up keeps the order of what remains: an entry `y` other than
      the id, with `a` before it and `b` after it in the liked list or in a
      playlist, stays between what remains of `a` and of `b`. */
  lemma ForgetKeepsOrder(db: Db, id: string, a: seq<string>, y: string, b: seq<string>)
    requires y != id
    ensures db.likedVideos == a + [y] + b ==>
              Forget(db, id).likedVideos == Filter(a, IsNot(id)) + [y] + Filter(b, IsNot(id))
    ensures forall pl :: pl in db.playlists && db.playlists[pl] == a + [y] + b ==>
              Forget(db, id).playlists[pl] == Filter(a, IsNot(id)) + [y] + Filter(b, IsNot(id))
  {
    FilterConcat(a + [y], b, IsNot(id));
    FilterConcat(a, [y], IsNot(id));
    assert Filter([y], IsNot(id)) == [y] by {
      assert [y][1..] == [];
    }
  }

  /** A completed deletion forgets the id in the database and removes its
      entry from the catalog; with distinct ids no entry with that id is left,
      and every other entry stays, in order. */
  lemma DeleteCompletes(db: Db, catalog: seq<Video>, i: nat)
    requires IdsDistinct(catalog) && i < |catalog|
    ensures var id := catalog[i].Id();
      var o := DeleteVideo(db, catalog, id, Completes);
      && o.reply == Reply(200, Message("Video deleted successfully"))
      && o.db == Forget(db, id)
      && o.catalog == catalog[..i] + catalog[i + 1..]
      && (forall v :: v in o.catalog <==> v in catalog && v.Id() != id)
      && IdsDistinct(o.catalog)
  {
    DistinctFirst(catalog, i);
    FindFirst(catalog, catalog[i].Id(), i);
    SpliceKeepsOthers(catalog, i);
    SpliceDistinct(catalog, i);
  }

  /** Splicing out one entry keeps the remaining ids distinct, so a second
      deletion can follow. */
  lemma SpliceDistinct(catalog: seq<Video>, i: nat)
    requires IdsDistinct(catalog) && i < |catalog|
    ensures IdsDistinct(catalog[..i] + catalog[i + 1..])
  {
    var rest := catalog[..i] + catalog[i + 1..];
    forall a, b | 0 <= a < b < |rest| ensures rest[a].Id() != rest[b].Id() {
      var a' := if a < i then a else a + 1;
      var b' := if b < i then b else b + 1;
      assert rest[a] == catalog[a'] && rest[b] == catalog[b'];
    }
  }

  /** Splicing out entry `i` of a catalog with distinct ids leaves exactly
      the entries with other ids. */
  lemma SpliceKeepsOthers(catalog: seq<Video>, i: nat)
    requires IdsDistinct(catalog) && i < |catalog|
    ensures forall v :: v in catalog[..i] + catalog[i + 1..] <==> v in catalog && v.Id() != catalog[i].Id()
  {
    var id := catalog[i].Id();
    var rest := catalog[..i] + catalog[i + 1..];
    forall v ensures v in rest <==> v in catalog && v.Id() != id {
      if v in rest {
        var k :| 0 <= k < |rest| && rest[k] == v;
        if k < i {
          assert v == catalog[k];
        } else {
          assert v == catalog[k + 1];
        }
      }
      if v in catalog && v.Id() != id {
        var k :| 0 <= k < |catalog| && catalog[k] == v;
        if k < i {
          assert rest[k] == v;
        } else {
          assert k != i;
          assert rest[k - 1] == v;
        }
      }
    }
  }

  /** A failed file removal answers 500 and changes nothing; a failed
      database write answers 500 after the in-memory clean-up, with the
      catalog entry still in place. */
  lemma DeleteFails(db: Db, catalog: seq<Video>, i: nat)
    requires IdsDistinct(catalog) && i < |catalog|
    ensures var id := catalog[i].Id();
      var unlink := DeleteVideo(db, catalog, id, UnlinkFails);
      var save := DeleteVideo(db, catalog, id, SaveFails);
      && unlink == DeleteOutcome(db, catalog, Reply(500, Error("Failed to delete video")))
      && save == DeleteOutcome(Forget(db, id), catalog, Reply(500, Error("Failed to delete video")))
  {
    DistinctFirst(catalog, i);
    FindFirst(catalog, catalog[i].Id(), i);
  }
}
